=== FILE: README.md ===
# Poker table settlement, modelled in Dafny

This project models the core of a mobile app for home poker sessions. A
session has an 8-seat table. Each seated player has a buy-in (`chips`) and
a cash-out count (`endgameChips`). When the table breaks up, the app turns
everyone's net change into a list of debts: who pays whom, and how much.

The model covers:

- **The settlement engine** (`calculateTransactions`):
  - build one net-change entry per occupied slot;
  - split the entries into lenders (net gain) and borrowers (net loss), keeping table order;
  - match them greedily with two cursors.

  The loop is a method (`Settlement.MatchDebts`). It is proved equal to a
  recursive definition of the matching (`Settlement.Greedy`). The
  properties are proved on that definition: money conserved, amount moved,
  number of transfers, order, and what each winner receives and each loser
  pays over all the transfers that name them. When the table balances,
  every winner receives exactly their gain and every loser pays exactly
  their loss.
- **Chip editing and saving**:
  - `handleEndgameChipsChange` is a point update keyed by player id. It reads the text with `parseInt(value, 10) || 0`.
  - `handleSaveChips` picks out the players whose end-game count differs from their buy-in.
- **The table helpers in `firebase.ts`**:
  - place documents into 8 seat slots;
  - the money-on-the-table sum, where a missing `chips` field counts as 0;
  - the choice of the active session.

  Documents arrive as a sequence in query order. The query itself is not modelled.
- **The two player forms**: their acceptance rule, the records they produce, and the edit form's prefill round trip.
- **The JavaScript text primitives they rely on**: `parseInt(s, 10)`, `String.prototype.trim` and `Number.prototype.toString` on integers (module `JsText`).

Modules:

| module | file | contents |
|---|---|---|
| `Wrappers` | wrappers.dfy | `Option`, `Result` |
| `Seqs` | seqs.dfy | order-preserving `Filter` (`Array.prototype.filter`) and its laws |
| `JsText` | jstext.dfy | whitespace, `trim`, `parseInt`, integer `toString` |
| `Records` | records.dfy | `Player`, `Session`, the 8-seat constant, chip totals |
| `Table` | table.dfy | slot placement, money sum, active session |
| `Settlement` | settlement.dfy | net changes, the greedy matching and the loop |
| `SettlementProperties` | settlement_props.dfy | properties of the matching |
| `Editing` | editing.dfy | end-game chip edits and the save filter |
| `Forms` | forms.dfy | the create and edit player forms |

The code does not enforce the following; the model follows the code:

- Two documents with the same seat do not raise an error. The later one in query order takes the slot.
- Chip counts are not forced to be non-negative. The forms accept `"-5"`.
- Names are checked with `trim()` but stored untrimmed.

Chip counts are modelled as mathematical integers. JavaScript numbers are doubles, but every value here is an integer.

## Model

| member | source | states |
|---|---|---|
| JsText.TrimStart | app/components/forms/CreatePlayerForm.tsx:23 | what is dropped is whitespace, what is left is a suffix of the input, and it starts with a non-whitespace character |
| JsText.TrimEnd | app/components/forms/CreatePlayerForm.tsx:23 | what is dropped is trailing whitespace, what is left is a prefix of the input, and it ends with a non-whitespace character |
| JsText.Trim | app/components/forms/CreatePlayerForm.tsx:23 | `trim()` (also at app/components/modals/EditAttributeForm.tsx:37) is no longer than its input, is empty exactly for an all-whitespace input, and otherwise starts and ends with a non-whitespace character |
| JsText.TrimKeepsMiddle | app/components/forms/CreatePlayerForm.tsx:23 | `trim()` keeps exactly the characters of the input from where the leading whitespace ends, in order, and everything it drops before and after them is whitespace |
| JsText.TrimEmptyIffBlank | app/components/forms/CreatePlayerForm.tsx:23 | `name.trim()` is empty exactly when the name is all whitespace |
| JsText.DigitPrefix | hooks/useMoneySummary.ts:129 | the digit run `parseInt` reads is a prefix of the input, all digits, and as long as possible |
| JsText.ParseInt | hooks/useMoneySummary.ts:129 | `parseInt(s, 10)` (also at app/components/forms/CreatePlayerForm.tsx:22 and app/components/modals/EditAttributeForm.tsx:38) yields a number exactly when a digit follows the optional sign after leading whitespace; a negative result needs a leading `-` |
| JsText.ParseSigned | hooks/useMoneySummary.ts:129 | after leading whitespace, `parseInt` yields a number exactly when a digit follows the optional sign |
| JsText.ParseIntOrZero | hooks/useMoneySummary.ts:129 | the lenient read of a chip count is 0 when `parseInt` gives NaN and the parsed value otherwise |
| JsText.ParseIntSkipsWhitespace | hooks/useMoneySummary.ts:129 | leading whitespace does not change what `parseInt` reads |
| JsText.NatToDigits | app/components/modals/EditAttributeForm.tsx:24 | the printed digits are non-empty, have no leading zero unless the number is 0, and denote the number |
| JsText.IntToString | app/components/modals/EditAttributeForm.tsx:24 | the printed text starts with `-` exactly for negative numbers |
| JsText.ParseIntToStringPrefix | app/components/modals/EditAttributeForm.tsx:24-38 | `parseInt` reads back the number `toString` printed, whatever non-digit text follows it |
| JsText.ParseIntToString | app/components/modals/EditAttributeForm.tsx:24-38 | `parseInt(n.toString(), 10) == n` for every integer |
| Table.LastAtSeat | firebase.ts:69-79 | a slot is empty exactly when no document has that seat; otherwise it holds the last such document in query order |
| Table.PlaceBySeat | firebase.ts:69-81 | exactly 8 slots; each holds the last document seated there; a slot no document maps to stays null; a slot only holds a document with that seat |
| Table.GetAllPlayers | firebase.ts:53-81 | an empty session id is refused with the error message before anything is placed; otherwise the 8 placed slots |
| Table.TableMoneySum | firebase.ts:107-114 | the accumulation loop computes the sum of the `chips` fields, a missing one counting as 0 |
| Table.MoneySumIsTotalBuyIn | firebase.ts:107-114 | for documents that all have `chips`, the money sum is the total buy-in of every document the query returned, seated or not |
| Table.MoneySumIsTableBuyIn | firebase.ts:107-114 | when every document has its own seat on the table, the money sum equals the buy-in over the 8 slots `getAllPlayers` builds (firebase.ts:69-81) |
| Table.MoneySumCountsUnseated | firebase.ts:109-112 | a document without a seat adds its chips to the money sum but occupies no slot, so the money sum exceeds the table's buy-in by that document's chips |
| Table.ActiveSession | firebase.ts:125-139 | null exactly when no session is active; otherwise the first active session in query order |
| Settlement.NetChanges | hooks/useMoneySummary.ts:91-97 | at most one entry per slot |
| Settlement.SumNetSplit | hooks/useMoneySummary.ts:99-100 | players who broke even drop out without changing the balance: lenders plus borrowers sum to the table's balance |
| Settlement.Transactions | hooks/useMoneySummary.ts:89-126 | `calculateTransactions` as a function of the table: one transfer per match of the matching |
| Settlement.Greedy | hooks/useMoneySummary.ts:107-123 | every match names a lender and a borrower position inside the lists |
| Settlement.LoopStep | hooks/useMoneySummary.ts:107-123 | one iteration keeps the loop invariant: remainders stay within their balances, the money emitted has left the lenders and reached the borrowers, and emitted-so-far plus the rest of the matching is the whole matching |
| Settlement.MatchDebts | hooks/useMoneySummary.ts:102-125 | the loop emits exactly the recursive matching, and leaves each remainder between 0 and the original balance, one side fully settled, and the smaller of total credit and total debt moved |
| Settlement.CalculateTransactions | hooks/useMoneySummary.ts:89-126 | the loop over the occupied slots emits exactly the recursive settlement of the table (the reference definition whose properties the SettlementProperties lemmas prove) |
| Settlement.BalancedLeavesNothing | hooks/useMoneySummary.ts:102-125 | when total credit and total debt cancel, the loop leaves every lender and every borrower at exactly 0 |
| SettlementProperties.NetChangesOfSeated | hooks/useMoneySummary.ts:91-97 | every occupied slot gives exactly one entry, in slot order, with net `endgameChips - chips`; empty slots give none |
| SettlementProperties.NetChangesSum | hooks/useMoneySummary.ts:91-97 | the table's balance is total end-game chips minus total buy-in |
| SettlementProperties.LendersAndBorrowers | hooks/useMoneySummary.ts:99-100 | lenders are exactly the entries with a gain, borrowers exactly those with a loss; an even player is in neither |
| SettlementProperties.BreakEvenSeated | hooks/useMoneySummary.ts:91-100 | seating a player who broke even in an empty slot changes neither list and no transfer |
| SettlementProperties.GreedyCount | hooks/useMoneySummary.ts:107-123 | no transfers exactly when a list is used up; otherwise at most one fewer transfer than the players left on both sides |
| SettlementProperties.GreedyOrder | hooks/useMoneySummary.ts:107-123 | the first transfer is at the cursors; between consecutive transfers neither position goes back and at least one moves on |
| SettlementProperties.GreedyAmounts | hooks/useMoneySummary.ts:108-119 | every amount is strictly positive and at most the balance of the lender and of the borrower it is charged to |
| SettlementProperties.GreedyTotal | hooks/useMoneySummary.ts:107-123 | the money moved from any cursor pair on is the smaller of the open credit and the open debt there |
| SettlementProperties.SettlementEmpty | hooks/useMoneySummary.ts:107 | no transfers exactly when nobody won or nobody lost |
| SettlementProperties.SettlementCount | hooks/useMoneySummary.ts:107-123 | at most one transfer fewer than winners and losers together |
| SettlementProperties.SettlementOrder | hooks/useMoneySummary.ts:107-123 | the first transfer pairs the first winner with the first loser; list positions never go back and at least one advances per transfer |
| SettlementProperties.SettlementFlow | hooks/useMoneySummary.ts:108-116 | every transfer is positive and goes from a player who lost at least that much to a player who won at least that much |
| SettlementProperties.SettlementTotal | hooks/useMoneySummary.ts:107-123 | the money moved is the smaller of total winnings and total losses |
| SettlementProperties.GreedyPaysLenders | hooks/useMoneySummary.ts:107-123 | when the open debt covers the open credit, every lender from the cursor on receives, over all matches naming it, exactly its gain less what it was already paid |
| SettlementProperties.GreedyPaysBorrowers | hooks/useMoneySummary.ts:107-123 | when the open credit covers the open debt, every borrower from the cursor on pays, over all matches naming it, exactly its loss less what it already paid |
| SettlementProperties.SettlementPaysInFull | hooks/useMoneySummary.ts:89-126 | if the losses cover the winnings, each winner receives exactly their gain; if the winnings cover the losses, each loser pays exactly their loss |
| SettlementProperties.SettlementBalanced | hooks/useMoneySummary.ts:89-126 | when end-game chips match the buy-ins, each winner receives exactly their gain, each loser pays exactly their loss, and the money moved is the total of the winnings |
| SettlementProperties.WorkedTable | hooks/useMoneySummary.ts:89-126 | a table of +50, +30, -40, -40 settles as A←C 40, A←D 10, B←D 30 |
| Editing.EditEndgameChips | hooks/useMoneySummary.ts:128-138 | same length; null slots stay null; players with another id are unchanged; the player with the id gets the parsed value (0 for NaN) and keeps everything else |
| Editing.EditIdempotent | hooks/useMoneySummary.ts:128-138 | entering the same text twice is the same as entering it once |
| Editing.EditLastWins | hooks/useMoneySummary.ts:128-138 | only the last text entered for a player counts |
| Editing.EditsCommute | hooks/useMoneySummary.ts:128-138 | edits of different players do not interfere |
| Editing.EditUnknownId | hooks/useMoneySummary.ts:128-138 | an id not at the table changes nothing |
| Editing.EditShownValue | hooks/useMoneySummary.ts:128-138 | re-entering the printed current count changes nothing |
| Editing.EditKeepsBuyIn | hooks/useMoneySummary.ts:128-138 | the total buy-in is unchanged by any edit |
| Editing.ChangedPlayers | hooks/useMoneySummary.ts:142-144 | every selected player has end-game chips different from the buy-in |
| Editing.ChangedPlayersMembers | hooks/useMoneySummary.ts:142-144 | the selection holds exactly the seated players with a changed count |
| Editing.SaveChips | hooks/useMoneySummary.ts:142-149 | an update writes a non-empty list that holds exactly the seated players whose count changed |
| Editing.SaveNothingIff | hooks/useMoneySummary.ts:142-149 | nothing is written exactly when every seated player ends where they started |
| Editing.ChangedAreSettling | hooks/useMoneySummary.ts:142-144 | the players saved are as many as the lenders and borrowers of the settlement |
| Editing.NoChangesNoTransactions | hooks/useMoneySummary.ts:146-149 | when there is nothing to save, the settlement is empty |
| Forms.SubmitCreate | app/components/forms/CreatePlayerForm.tsx:21-34 | on acceptance, one draft with chips = end-game chips = the parsed number, the seat passed through, the name untrimmed, and both fields reset; otherwise the alert and the form unchanged |
| Forms.AcceptableIff | app/components/forms/CreatePlayerForm.tsx:22-23 | a form is accepted exactly when the name has a non-whitespace character and the chips text has a digit after leading whitespace and an optional sign |
| Forms.CreatedBreaksEven | app/components/forms/CreatePlayerForm.tsx:24-28 | a created player's net change is 0, and the draft keeps the selected seat and the name as typed |
| Forms.CreatedKeepsSettlement | app/components/forms/CreatePlayerForm.tsx:24-28 | seating a freshly created player in an empty slot changes no transfer |
| Forms.CreateRoundTrip | app/components/forms/CreatePlayerForm.tsx:22-28 | a non-blank name with a printed number creates a player with exactly that buy-in |
| Forms.SubmitEditForm | app/components/modals/EditAttributeForm.tsx:36-43 | on acceptance `onSubmit(name, n)` then `onClose`; otherwise only the "Invalid data" alert |
| Forms.Prefill | app/components/modals/EditAttributeForm.tsx:21-25 | the loaded name is the stored name and the chips text parses back to the stored buy-in; a missing player leaves the form as it was |
| Forms.EditRoundTrip | app/components/modals/EditAttributeForm.tsx:24-39 | opening the form and submitting untouched submits the player's own name and buy-in |
| Forms.FormsAgree | app/components/modals/EditAttributeForm.tsx:37-38 | under the decimal reading of the edit form's acceptance test (see "Left out"), the create and edit forms accept the same input and read the same number from it |

## Left out

- Firestore access (`getDocs`, `updateDoc`, `addDoc`, `deleteDoc`) is not modelled; this is foreign I/O. Query results are inputs, already filtered by session and in query order (`where`/`orderBy` are not modelled).
- The writes of `handleSaveChips` are not modelled: the calls to `updatePlayer`, the success and error alerts, and the refetch. `Editing.SaveChips` returns the records it would write.
- React state and effects are not modelled. Updates are pure functions from the old table to the new one; loading and error states are left out.
- `services/firebase.ts` is not part of this model. The settlement hook imports its table from there, while `getAllPlayers` here is the one in `firebase.ts`.
- Floating point is not modelled: chip counts are unbounded integers. `parseInt` loses precision above 2^53, and `toString` prints `1e21` and larger in exponent form. Both are outside the model.
- `parseInt(chips)` without a radix in the edit form's acceptance test reads a `0x` prefix as hexadecimal. It is modelled as decimal, so `"0x"` is accepted there, as the create form accepts it, although the program alerts.
- `getTableMoneySum` counts every document of the session: one without a seat, one with a seat outside 0 to 7, and one overwritten by a later document at the same seat. `getAllPlayers` drops all three. The two totals agree when every document has its own seat on the table (`Table.MoneySumIsTableBuyIn`, `Table.MoneySumCountsUnseated`).
- `getActiveSession` compares with loose `== true`. That also matches values that convert to the number 1, such as `1` or `"1"`, but not other truthy values such as `2` or `"true"`. `isActive` is modelled as a boolean.
- A seat that is not an integer (such as 2.5) would be stored as a non-index property by JavaScript. Seats are modelled as integers.
- `getAllPlayers` guards with `!sessionId`, which also catches null and undefined. Session ids are modelled as strings, so only `""` is refused.
- A player document without `chips` is modelled only in the money sum (`Option<int>`). Everywhere else `chips` is present, as the `Player` interface requires.
- Session dates are opaque integers.
- The edit form's load failure (an exception from `getPlayerDetails`) and its console output are not modelled.
- JsText.Trim: its own contract states the length bound, the non-whitespace ends and when the result is empty. Which characters it keeps is the lemma JsText.TrimKeepsMiddle. The program itself only tests `name.trim()` for emptiness (app/components/forms/CreatePlayerForm.tsx:23, app/components/modals/EditAttributeForm.tsx:37).
- Settlement.Transactions: its own contract only ties it to the matching, one transfer per match. What the settlement promises (amounts, order, count, totals, and each winner's and loser's payments) is stated by the SettlementProperties lemmas about it.
- Settlement.NetChanges: its own contract only bounds the length. The full statement (one entry per occupied slot, in order, with `endgameChips - chips`) is the lemma SettlementProperties.NetChangesOfSeated.

=== FILE: editing.dfy ===
/** Editing the end-game chips of the table before settling, and picking
    out the players whose edit has to be saved. */
module Editing {
  import opened Wrappers
  import opened Seqs
  import opened JsText
  import opened Records
  import opened Settlement

  /** One slot under `handleEndgameChipsChange`: the player with the given
      id gets the new end-game count, every other slot stays as it is. */
  function EditSlot(slot: Option<Player>, id: string, v: int): Option<Player> {
    match slot
    case Some(p) => if p.id == id then Some(p.(endgameChips := v)) else slot
    case None => None
  }

  /** `handleEndgameChipsChange(id, value)`: the text is read with
      `parseInt(value, 10) || 0` and written into every slot holding a
      player with that id. */
  function EditEndgameChips(slots: seq<Option<Player>>, id: string, value: string): (r: seq<Option<Player>>)
    ensures |r| == |slots|
    ensures forall k :: 0 <= k < |r| ==> (r[k].None? <==> slots[k].None?)
    ensures forall k :: 0 <= k < |r| && slots[k].Some? && slots[k].value.id != id ==> r[k] == slots[k]
    ensures forall k :: 0 <= k < |r| && slots[k].Some? && slots[k].value.id == id ==>
              r[k].value == slots[k].value.(endgameChips := ParseIntOrZero(value))
  {
    seq(|slots|, k requires 0 <= k < |slots| => EditSlot(slots[k], id, ParseIntOrZero(value)))
  }

  /** Entering the same text twice is the same as entering it once. */
  lemma EditIdempotent(slots: seq<Option<Player>>, id: string, value: string)
    ensures EditEndgameChips(EditEndgameChips(slots, id, value), id, value) == EditEndgameChips(slots, id, value)
  {
    var once := EditEndgameChips(slots, id, value);
    var twice := EditEndgameChips(once, id, value);
    assert forall k :: 0 <= k < |slots| ==> twice[k] == once[k];
  }

  /** Only the last text entered for a player counts. */
  lemma EditLastWins(slots: seq<Option<Player>>, id: string, first: string, second: string)
    ensures EditEndgameChips(EditEndgameChips(slots, id, first), id, second) == EditEndgameChips(slots, id, second)
  {
    var a := EditEndgameChips(EditEndgameChips(slots, id, first), id, second);
    var b := EditEndgameChips(slots, id, second);
    assert forall k :: 0 <= k < |slots| ==> a[k] == b[k];
  }

  /** Edits of two different players do not interfere. */
  lemma EditsCommute(slots: seq<Option<Player>>, id1: string, v1: string, id2: string, v2: string)
    requires id1 != id2
    ensures EditEndgameChips(EditEndgameChips(slots, id1, v1), id2, v2)
              == EditEndgameChips(EditEndgameChips(slots, id2, v2), id1, v1)
  {
    var a := EditEndgameChips(EditEndgameChips(slots, id1, v1), id2, v2);
    var b := EditEndgameChips(EditEndgameChips(slots, id2, v2), id1, v1);
    assert forall k :: 0 <= k < |slots| ==> a[k] == b[k];
  }

  /** An id that is not at the table changes nothing. */
  lemma EditUnknownId(slots: seq<Option<Player>>, id: string, value: string)
    requires forall k :: 0 <= k < |slots| && slots[k].Some? ==> slots[k].value.id != id
    ensures EditEndgameChips(slots, id, value) == slots
  {
    var r := EditEndgameChips(slots, id, value);
    assert forall k :: 0 <= k < |slots| ==> r[k] == slots[k];
  }

  /** Re-entering the count the table already shows (as `toString` prints
      it) changes nothing. */
  lemma EditShownValue(slots: seq<Option<Player>>, id: string, n: int)
    requires forall k :: 0 <= k < |slots| && slots[k].Some? && slots[k].value.id == id ==>
               slots[k].value.endgameChips == n
    ensures EditEndgameChips(slots, id, IntToString(n)) == slots
  {
    ParseIntToString(n);
    var r := EditEndgameChips(slots, id, IntToString(n));
    assert forall k :: 0 <= k < |slots| ==> r[k] == slots[k];
  }

  lemma EditTail(slots: seq<Option<Player>>, id: string, value: string)
    requires slots != []
    ensures EditEndgameChips(slots, id, value)[1..] == EditEndgameChips(slots[1..], id, value)
  {
  }

  /** The buy-ins are untouched: only end-game counts are edited. */
  lemma {:induction false} EditKeepsBuyIn(slots: seq<Option<Player>>, id: string, value: string)
    ensures TotalChips(EditEndgameChips(slots, id, value)) == TotalChips(slots)
  {
    if slots != [] {
      EditTail(slots, id, value);
      EditKeepsBuyIn(slots[1..], id, value);
    }
  }

  // ---------------------------------------------------------------------
  // Saving

  predicate IsChanged(p: Player) {
    p.endgameChips != p.chips
  }

  /** The filter of `handleSaveChips`: the seated players whose end-game
      count differs from their buy-in, in slot order. */
  function ChangedPlayers(slots: seq<Option<Player>>): (r: seq<Player>)
    ensures |r| <= |slots|
    ensures forall k :: 0 <= k < |r| ==> IsChanged(r[k])
  {
    if slots == [] then []
    else
      (match slots[0] case Some(p) => if IsChanged(p) then [p] else [] case None => []) + ChangedPlayers(slots[1..])
  }

  /** The changed players are exactly the seated players with a change. */
  lemma {:induction false} ChangedPlayersMembers(slots: seq<Option<Player>>)
    ensures forall p :: p in ChangedPlayers(slots) <==> Some(p) in slots && IsChanged(p)
  {
    if slots != [] {
      ChangedPlayersMembers(slots[1..]);
      assert forall o :: o in slots <==> o == slots[0] || o in slots[1..];
    }
  }

  /** What `handleSaveChips` does with the table. */
  datatype SaveOutcome =
    | NoChanges                       // the "No Changes" alert, nothing written
    | UpdatePlayers(players: seq<Player>)  // one `updatePlayer` per record, in order

  /** `handleSaveChips`: one write for every seated player whose count
      changed, and nothing else. */
  function SaveChips(slots: seq<Option<Player>>): (r: SaveOutcome)
    ensures r.UpdatePlayers? ==> r.players != [] && forall k :: 0 <= k < |r.players| ==> IsChanged(r.players[k])
    ensures r.UpdatePlayers? ==> forall p :: p in r.players <==> Some(p) in slots && IsChanged(p)
  {
    ChangedPlayersMembers(slots);
    var changed := ChangedPlayers(slots);
    if |changed| == 0 then NoChanges else UpdatePlayers(changed)
  }

  /** Nothing is written exactly when every seated player ends where they
      started. */
  lemma SaveNothingIff(slots: seq<Option<Player>>)
    ensures SaveChips(slots).NoChanges? <==>
              forall k :: 0 <= k < |slots| && slots[k].Some? ==> !IsChanged(slots[k].value)
  {
    ChangedPlayersMembers(slots);
    if SaveChips(slots).UpdatePlayers? {
      var p := ChangedPlayers(slots)[0];
      assert p in ChangedPlayers(slots);
    } else {
      forall k | 0 <= k < |slots| && slots[k].Some?
        ensures !IsChanged(slots[k].value)
      {
        assert Some(slots[k].value) in slots;
      }
    }
  }

  /** A changed player is exactly a player who is a lender or a borrower in
      the settlement: the save writes one record per settling player. */
  lemma {:induction false} ChangedAreSettling(slots: seq<Option<Player>>)
    ensures var es := NetChanges(slots);
      |ChangedPlayers(slots)| == |Lenders(es)| + |Borrowers(es)|
  {
    if slots != [] {
      ChangedAreSettling(slots[1..]);
      var rest := NetChanges(slots[1..]);
      match slots[0]
      case Some(p) =>
        var es := [Entry(p)] + rest;
        assert es[1..] == rest;
      case None =>
        AppendNil(rest);
    }
  }

  /** When nothing is saved, nobody owes anybody anything. */
  lemma NoChangesNoTransactions(slots: seq<Option<Player>>)
    requires SaveChips(slots).NoChanges?
    ensures Transactions(slots) == []
  {
    ChangedAreSettling(slots);
  }
}

=== FILE: forms.dfy ===
/** The two player forms: creating a player at a seat, and editing a
    player's name and buy-in. Each form holds its two text fields; a
    submission either hands clean data to the screen or raises an alert. */
module Forms {
  import opened Wrappers
  import opened JsText
  import opened Records
  import opened Settlement
  import opened SettlementProperties

  /** The two text inputs of a form. */
  datatype FormState = FormState(name: string, chips: string)

  const EmptyForm := FormState("", "")

  /** The data the create form passes to its parent. */
  datatype PlayerDraft = PlayerDraft(name: string, chips: int, endgameChips: int, seat: Option<int>)

  /** What a submission does, in order: call `onSubmit`, call `onClose`, or
      show an alert. */
  datatype Effect =
    | SubmitDraft(draft: PlayerDraft)
    | SubmitEdit(name: string, chips: int)
    | Close
    | Alert(message: string)

  /** Both forms accept when `name.trim()` is non-empty and the chips text
      parses as an integer. */
  predicate Acceptable(form: FormState) {
    Trim(form.name) != [] && ParseInt(form.chips).Some?
  }

  /** `handleSubmit` of the create form: the effects it has and the form
      it leaves behind. */
  function SubmitCreate(form: FormState, selectedSeat: Option<int>): (r: (seq<Effect>, FormState))
    ensures Acceptable(form) ==>
      var n := ParseInt(form.chips).value;
      && r.0 == [SubmitDraft(PlayerDraft(form.name, n, n, selectedSeat))]
      && r.1 == EmptyForm
    ensures !Acceptable(form) ==> r.0 == [Alert("Please fill out all fields correctly.")] && r.1 == form
  {
    var chipsNumber := ParseInt(form.chips);
    if Trim(form.name) != [] && chipsNumber.Some? then
      ([SubmitDraft(PlayerDraft(form.name, chipsNumber.value, chipsNumber.value, selectedSeat))], FormState("", ""))
    else
      ([Alert("Please fill out all fields correctly.")], form)
  }

  /** The acceptance rule in terms of the text itself: some non-whitespace
      character in the name, and an optional sign and at least one digit,
      after leading whitespace, in the chips field. */
  lemma AcceptableIff(form: FormState)
    ensures Acceptable(form) <==>
      && !IsBlank(form.name)
      && var t := TrimStart(form.chips);
         var body := if t != [] && (t[0] == '-' || t[0] == '+') then t[1..] else t;
         body != [] && IsDigit(body[0])
  {
    TrimEmptyIffBlank(form.name);
  }

  /** A created player starts even: end-game chips equal the buy-in, so the
      player's net change is 0. */
  lemma CreatedBreaksEven(form: FormState, selectedSeat: Option<int>, d: PlayerDraft)
    ensures SubmitDraft(d) in SubmitCreate(form, selectedSeat).0 ==>
              d.endgameChips - d.chips == 0 && d.seat == selectedSeat && d.name == form.name
  {
  }

  /** The player `createPlayer` returns for a draft (`{ $id, ...data }`
      with the store's document id), the screen having added the session id
      to the draft's fields. */
  function Record(d: PlayerDraft, id: string, sessionId: string): (p: Player)
    ensures p.name == d.name && p.chips == d.chips && p.endgameChips == d.endgameChips && p.seat == d.seat
  {
    Player(id, d.name, d.chips, d.endgameChips, d.seat, sessionId)
  }

  /** Seating a freshly created player in an empty slot leaves every
      transfer of the settlement as it was. */
  lemma CreatedKeepsSettlement(form: FormState, selectedSeat: Option<int>, d: PlayerDraft,
                               slots: seq<Option<Player>>, k: nat, id: string, sessionId: string)
    requires k < |slots| && slots[k].None?
    ensures SubmitDraft(d) in SubmitCreate(form, selectedSeat).0 ==>
              Transactions(slots[k := Some(Record(d, id, sessionId))]) == Transactions(slots)
  {
    CreatedBreaksEven(form, selectedSeat, d);
    if SubmitDraft(d) in SubmitCreate(form, selectedSeat).0 {
      BreakEvenSeated(slots, k, Record(d, id, sessionId));
    }
  }

  /** A create form filled with a name and a printed number creates a
      player with exactly that buy-in. */
  lemma CreateRoundTrip(name: string, n: int, selectedSeat: Option<int>)
    requires !IsBlank(name)
    ensures SubmitCreate(FormState(name, IntToString(n)), selectedSeat).0
              == [SubmitDraft(PlayerDraft(name, n, n, selectedSeat))]
  {
    TrimEmptyIffBlank(name);
    ParseIntToString(n);
  }

  /** `handleSubmit` of the edit form: `onSubmit(name, parseInt(chips, 10))`
      then `onClose`, or an alert and nothing else. */
  function SubmitEditForm(form: FormState): (r: seq<Effect>)
    ensures Acceptable(form) ==> r == [SubmitEdit(form.name, ParseInt(form.chips).value), Close]
    ensures !Acceptable(form) ==> r == [Alert("Invalid data")]
  {
    if Trim(form.name) != [] && ParseInt(form.chips).Some? then
      [SubmitEdit(form.name, ParseInt(form.chips).value), Close]
    else
      [Alert("Invalid data")]
  }

  /** The effect of loading the player's details into the edit form: the
      name as stored and the buy-in printed with `toString`; when no player
      is found the fields stay as they were. */
  function Prefill(details: Option<Player>, form: FormState): (r: FormState)
    ensures details.Some? ==> r.name == details.value.name && ParseInt(r.chips) == Some(details.value.chips)
    ensures details.None? ==> r == form
  {
    match details
    case Some(p) =>
      ParseIntToString(p.chips);
      FormState(p.name, IntToString(p.chips))
    case None => form
  }

  /** Opening the edit form on a player and submitting without touching it
      submits the player's own name and buy-in. */
  lemma EditRoundTrip(p: Player, form: FormState)
    requires !IsBlank(p.name)
    ensures SubmitEditForm(Prefill(Some(p), form)) == [SubmitEdit(p.name, p.chips), Close]
  {
    TrimEmptyIffBlank(p.name);
  }

  /** The two forms accept the same input, read the same number from it and
      pass the name on untrimmed. */
  lemma FormsAgree(form: FormState, selectedSeat: Option<int>)
    ensures SubmitCreate(form, selectedSeat).0[0].SubmitDraft? <==> SubmitEditForm(form)[0].SubmitEdit?
    ensures SubmitEditForm(form)[0].SubmitEdit? ==>
              var d := SubmitCreate(form, selectedSeat).0[0].draft;
              SubmitEditForm(form)[0] == SubmitEdit(d.name, d.chips)
  {
  }
}

=== FILE: jstext.dfy ===
/** The JavaScript string primitives the forms and the chip editor rely on:
    `String.prototype.trim`, `parseInt(s, 10)` and `Number.prototype.toString`
    restricted to integers. Numbers are mathematical integers here. */
module JsText {
  import opened Wrappers
  import opened Seqs

  /** ECMAScript WhiteSpace and LineTerminator code points: the characters
      `trim` removes and `parseInt` skips. */
  predicate IsWhitespace(c: char) {
    || c == '\t' || c == '\U{000B}' || c == '\U{000C}' || c == ' '
    || c == '\U{00A0}' || c == '\U{FEFF}' || c == '\U{1680}'
    || ('\U{2000}' <= c <= '\U{200A}')
    || c == '\U{202F}' || c == '\U{205F}' || c == '\U{3000}'
    || c == '\n' || c == '\r' || c == '\U{2028}' || c == '\U{2029}'
  }

  predicate IsDigit(c: char) {
    '0' <= c <= '9'
  }

  predicate AllDigits(s: string) {
    forall k :: 0 <= k < |s| ==> IsDigit(s[k])
  }

  /** A string that `trim` reduces to "" (JavaScript treats it as falsy). */
  predicate IsBlank(s: string) {
    forall k :: 0 <= k < |s| ==> IsWhitespace(s[k])
  }

  /** `s` without its leading whitespace. */
  function TrimStart(s: string): (r: string)
    ensures |r| <= |s| && r == s[|s| - |r|..]
    ensures forall k :: 0 <= k < |s| - |r| ==> IsWhitespace(s[k])
    ensures r != [] ==> !IsWhitespace(r[0])
  {
    if s != [] && IsWhitespace(s[0]) then TrimStart(s[1..]) else s
  }

  /** `s` without its trailing whitespace. */
  function TrimEnd(s: string): (r: string)
    ensures |r| <= |s| && r == s[..|r|]
    ensures forall k :: |r| <= k < |s| ==> IsWhitespace(s[k])
    ensures r != [] ==> !IsWhitespace(r[|r| - 1])
  {
    if s != [] && IsWhitespace(s[|s| - 1]) then TrimEnd(s[..|s| - 1]) else s
  }

  /** `String.prototype.trim`: whitespace cut off on both sides (what
      `TrimStart` and `TrimEnd` each promise), so the result is empty
      exactly for a blank `s` and otherwise starts and ends with a
      non-whitespace character. */
  function Trim(s: string): (r: string)
    ensures |r| <= |s|
    ensures r != [] ==> !IsWhitespace(r[0]) && !IsWhitespace(r[|r| - 1])
    ensures r == [] <==> IsBlank(s)
  {
    var t := TrimStart(s);
    var r := TrimEnd(t);
    TrimEnds(t, r);
    TrimBlank(s);
    r
  }

  /** Trimming the end keeps the first character of a text that does not
      start with whitespace. */
  lemma TrimEnds(t: string, r: string)
    requires r == TrimEnd(t) && (t != [] ==> !IsWhitespace(t[0]))
    ensures r != [] ==> !IsWhitespace(r[0]) && !IsWhitespace(r[|r| - 1])
  {
    if r != [] {
      assert r[0] == t[0];
    }
  }

  /** Both trims together leave nothing exactly when `s` is all whitespace. */
  lemma TrimBlank(s: string)
    ensures TrimEnd(TrimStart(s)) == [] <==> IsBlank(s)
  {
    var t := TrimStart(s);
    if t != [] {
      assert !IsWhitespace(t[0]);
      assert s[|s| - |t|] == t[0];
    } else {
      assert forall k :: 0 <= k < |s| ==> IsWhitespace(s[k]);
    }
  }

  /** What `trim` keeps: the stretch of `s` that starts where `TrimStart`
      stops, with only whitespace before it and after it. */
  lemma TrimKeepsMiddle(s: string)
    ensures var a, r := |s| - |TrimStart(s)|, Trim(s);
      && a + |r| <= |s| && (forall k :: 0 <= k < |r| ==> r[k] == s[a + k])
      && (forall k :: 0 <= k < a ==> IsWhitespace(s[k]))
      && (forall k :: a + |r| <= k < |s| ==> IsWhitespace(s[k]))
  {
    var t := TrimStart(s);
    var r := TrimEnd(t);
    assert Trim(s) == r;
    Middle(s, t, r);
  }

  /** A prefix `r` of a suffix `t` of `s`, followed in `t` by whitespace
      only, seen in `s`. */
  lemma Middle(s: string, t: string, r: string)
    requires |t| <= |s| && t == s[|s| - |t|..]
    requires |r| <= |t| && r == t[..|r|]
    requires forall k :: |r| <= k < |t| ==> IsWhitespace(t[k])
    ensures var a := |s| - |t|;
      && a + |r| <= |s| && (forall k :: 0 <= k < |r| ==> r[k] == s[a + k])
      && forall k :: a + |r| <= k < |s| ==> IsWhitespace(s[k])
  {
    var a := |s| - |t|;
    assert forall k :: 0 <= k < |r| ==> r[k] == t[k] == s[a + k];
    forall k | a + |r| <= k < |s|
      ensures IsWhitespace(s[k])
    {
      assert s[k] == t[k - a];
    }
  }

  /** `s.trim()` is falsy exactly when `s` consists of whitespace only. */
  lemma TrimEmptyIffBlank(s: string)
    ensures Trim(s) == [] <==> IsBlank(s)
  {
  }

  /** The longest prefix of `s` made of decimal digits. */
  function DigitPrefix(s: string): (r: string)
    ensures |r| <= |s| && r == s[..|r|]
    ensures AllDigits(r)
    ensures |r| < |s| ==> !IsDigit(s[|r|])
  {
    if s != [] && IsDigit(s[0]) then [s[0]] + DigitPrefix(s[1..]) else []
  }

  /** The number a run of decimal digits denotes (0 for the empty run). */
  function DigitsValue(ds: string): nat
    requires AllDigits(ds)
  {
    if ds == [] then 0
    else 10 * DigitsValue(ds[..|ds| - 1]) + (ds[|ds| - 1] as int - '0' as int)
  }

  /** The value of the digit run at the start of `b`; `None` when `b` does
      not start with a digit. */
  function ParseDigits(b: string): (r: Option<nat>)
    ensures r.Some? <==> b != [] && IsDigit(b[0])
  {
    var ds := DigitPrefix(b);
    if ds == [] then None else Some(DigitsValue(ds))
  }

  /** `parseInt(s, 10)`: skip leading whitespace, take one optional sign and
      the longest run of digits after it; `None` stands for NaN, which is
      what JavaScript returns when that run is empty. */
  function ParseInt(s: string): (r: Option<int>)
    ensures var t := TrimStart(s);
      var body := if t != [] && (t[0] == '-' || t[0] == '+') then t[1..] else t;
      r.Some? <==> body != [] && IsDigit(body[0])
    ensures r.Some? && r.value < 0 ==> TrimStart(s)[0] == '-'
  {
    ParseSigned(TrimStart(s))
  }

  /** `parseInt` once the leading whitespace is gone. */
  function ParseSigned(t: string): (r: Option<int>)
    ensures r.Some? <==> ParseDigits(if t != [] && (t[0] == '-' || t[0] == '+') then t[1..] else t).Some?
  {
    if t != [] && t[0] == '-' then
      match ParseDigits(t[1..])
      case Some(v) => Some(-(v as int))
      case None => None
    else if t != [] && t[0] == '+' then
      match ParseDigits(t[1..])
      case Some(v) => Some(v as int)
      case None => None
    else
      match ParseDigits(t)
      case Some(v) => Some(v as int)
      case None => None
  }

  /** The `|| 0` idiom of the chip editor: NaN (and 0 itself) become 0. */
  function ParseIntOrZero(s: string): (r: int)
    ensures ParseInt(s) == None ==> r == 0
    ensures ParseInt(s).Some? ==> r == ParseInt(s).value
  {
    ParseInt(s).GetOr(0)
  }

  function DigitChar(d: nat): (c: char)
    requires d < 10
    ensures IsDigit(c) && c as int - '0' as int == d
  {
    ('0' as int + d) as char
  }

  /** The decimal digits of `n`, most significant first, without leading zeros. */
  function NatToDigits(n: nat): (r: string)
    ensures r != [] && AllDigits(r)
    ensures r[0] == '0' ==> n == 0
    ensures DigitsValue(r) == n
  {
    if n < 10 then [DigitChar(n)]
    else
      var r := NatToDigits(n / 10) + [DigitChar(n % 10)];
      assert r[..|r| - 1] == NatToDigits(n / 10);
      r
  }

  /** `Number.prototype.toString()` on an integer-valued number. */
  function IntToString(n: int): (r: string)
    ensures r != []
    ensures n < 0 <==> r[0] == '-'
  {
    if n < 0 then "-" + NatToDigits(-n) else NatToDigits(n)
  }

  /** The digit run of `ds + rest` is `ds` when `rest` does not continue it. */
  lemma {:induction false} DigitPrefixStops(ds: string, rest: string)
    requires AllDigits(ds)
    requires rest == [] || !IsDigit(rest[0])
    ensures DigitPrefix(ds + rest) == ds
  {
    if ds != [] {
      assert (ds + rest)[1..] == ds[1..] + rest;
      DigitPrefixStops(ds[1..], rest);
    } else {
      assert ds + rest == rest;
    }
  }

  /** A run of digits that `rest` does not continue reads as its value. */
  lemma ParseDigitsStops(ds: string, rest: string)
    requires ds != [] && AllDigits(ds)
    requires rest == [] || !IsDigit(rest[0])
    ensures ParseSigned(ds + rest) == Some(DigitsValue(ds) as int)
  {
    DigitPrefixStops(ds, rest);
    assert (ds + rest)[0] == ds[0];
  }

  /** The same run behind a minus sign reads as its negation. */
  lemma ParseNegativeStops(ds: string, rest: string)
    requires ds != [] && AllDigits(ds)
    requires rest == [] || !IsDigit(rest[0])
    ensures ParseSigned(['-'] + (ds + rest)) == Some(-(DigitsValue(ds) as int))
  {
    ConsTail('-', ds + rest);
    ParseDigitsOf(ds, rest);
    ParseMinus(['-'] + (ds + rest));
  }

  /** The digit run at the start of `ds + rest`, read as a number. */
  lemma ParseDigitsOf(ds: string, rest: string)
    requires ds != [] && AllDigits(ds)
    requires rest == [] || !IsDigit(rest[0])
    ensures ParseDigits(ds + rest) == Some(DigitsValue(ds))
  {
    DigitPrefixStops(ds, rest);
  }

  /** A leading minus sign negates the digit run behind it. */
  lemma ParseMinus(t: string)
    requires t != [] && t[0] == '-' && ParseDigits(t[1..]).Some?
    ensures ParseSigned(t) == Some(-(ParseDigits(t[1..]).value as int))
  {
  }

  /** Text that does not start with whitespace is left alone by `TrimStart`. */
  lemma TrimStartNoop(s: string)
    requires s != [] && !IsWhitespace(s[0])
    ensures TrimStart(s) == s
  {
  }

  /** `parseInt` reads back what `toString` wrote, and stops at the first
      character that cannot continue the number. */
  lemma ParseIntToStringPrefix(n: int, rest: string)
    requires rest == [] || !IsDigit(rest[0])
    ensures ParseInt(IntToString(n) + rest) == Some(n)
  {
    var s := IntToString(n) + rest;
    assert s[0] == IntToString(n)[0];
    TrimStartNoop(s);
    ParseSignedToString(n, rest);
  }

  /** The same once leading whitespace is out of the way. */
  lemma ParseSignedToString(n: int, rest: string)
    requires rest == [] || !IsDigit(rest[0])
    ensures ParseSigned(IntToString(n) + rest) == Some(n)
  {
    if n < 0 {
      var ds := NatToDigits(-n);
      assert IntToString(n) + rest == ['-'] + (ds + rest);
      ParseNegativeStops(ds, rest);
    } else {
      ParseDigitsStops(NatToDigits(n), rest);
    }
  }

  /** The round trip the edit form relies on: `parseInt(n.toString(), 10) == n`. */
  lemma ParseIntToString(n: int)
    ensures ParseInt(IntToString(n)) == Some(n)
  {
    ParseIntToStringPrefix(n, []);
    assert IntToString(n) + [] == IntToString(n);
  }

  /** Leading whitespace does not change what `parseInt` reads. */
  lemma ParseIntSkipsWhitespace(c: char, s: string)
    requires IsWhitespace(c)
    ensures ParseInt([c] + s) == ParseInt(s)
  {
    assert ([c] + s)[1..] == s;
    assert TrimStart([c] + s) == TrimStart(s);
    assert ParseInt([c] + s) == ParseSigned(TrimStart(s));
  }
}

=== FILE: records.dfy ===
/** The stored records of the app: players seated at an 8-seat table and the
    sessions they belong to. Chip counts are mathematical integers; the app's
    forms admit negative values, so they are `int`, not `nat`. */
module Records {
  import opened Wrappers

  /** Seats are numbered 0 to 7. */
  const TableSize: nat := 8

  /** A player document; `id` is the document id the store assigns. */
  datatype Player = Player(
    id: string,
    name: string,
    chips: int,          // buy-in
    endgameChips: int,   // chips held when the table breaks up
    seat: Option<int>,   // null when unseated
    sessionId: string)

  /** A session document; `date` is an opaque timestamp. */
  datatype Session = Session(id: string, date: int, isActive: bool, userId: string)

  /** The buy-in a slot holds: the player's `chips`, or 0 for an empty slot. */
  function SlotChips(slot: Option<Player>): int {
    match slot case Some(p) => p.chips case None => 0
  }

  /** Buy-in over the occupied slots of a table. */
  function TotalChips(slots: seq<Option<Player>>): int
  {
    if slots == [] then 0 else SlotChips(slots[0]) + TotalChips(slots[1..])
  }

  /** End-game chips over the occupied slots of a table. */
  function TotalEndgameChips(slots: seq<Option<Player>>): int
  {
    if slots == [] then 0
    else (match slots[0] case Some(p) => p.endgameChips case None => 0) + TotalEndgameChips(slots[1..])
  }
}

=== FILE: seqs.dfy ===
/** Order-preserving selection over sequences: the model of `Array.prototype.filter`. */
module Seqs {

  /** The elements of `s` satisfying `p`, in their original order. */
  function Filter<T(!new)>(s: seq<T>, p: T -> bool): (r: seq<T>)
    ensures |r| <= |s|
    ensures forall k :: 0 <= k < |r| ==> p(r[k])
  {
    if s == [] then [] else (if p(s[0]) then [s[0]] else []) + Filter(s[1..], p)
  }

  /** The kept elements are exactly the elements of `s` satisfying `p`. */
  lemma {:induction false} FilterMembers<T(!new)>(s: seq<T>, p: T -> bool)
    ensures forall x :: x in Filter(s, p) <==> x in s && p(x)
  {
    if s != [] {
      FilterMembers(s[1..], p);
      assert forall x :: x in s <==> x == s[0] || x in s[1..];
    }
  }

  /** Filtering distributes over concatenation: the relative order of the
      kept elements is exactly their order in the input. */
  lemma {:induction false} FilterAppend<T(!new)>(a: seq<T>, b: seq<T>, p: T -> bool)
    ensures Filter(a + b, p) == Filter(a, p) + Filter(b, p)
  {
    if a == [] {
      assert a + b == b;
    } else {
      assert (a + b)[1..] == a[1..] + b;
      FilterAppend(a[1..], b, p);
    }
  }

  /** Filtering drops everything exactly when no element satisfies `p`. */
  lemma {:induction false} FilterEmpty<T(!new)>(s: seq<T>, p: T -> bool)
    ensures Filter(s, p) == [] <==> forall x :: x in s ==> !p(x)
  {
    if s != [] {
      FilterEmpty(s[1..], p);
    }
  }

  lemma AppendNil<T>(a: seq<T>)
    ensures [] + a == a && a + [] == a
  {
  }

  lemma AppendAssoc<T>(a: seq<T>, b: seq<T>, c: seq<T>)
    ensures (a + b) + c == a + (b + c)
  {
  }

  lemma ConsTail<T>(x: T, s: seq<T>)
    ensures ([x] + s)[0] == x && ([x] + s)[1..] == s
  {
  }
}

=== FILE: settlement.dfy ===
/** The end-of-session settlement of `useMoneySummary`: every seated player's
    net change (end-game chips minus buy-in), split into lenders (net gain)
    and borrowers (net loss) in table order, and matched greedily with two
    cursors into a list of transfers from borrowers to lenders. */
module Settlement {
  import opened Wrappers
  import opened Seqs
  import opened Records

  /** The per-player object built before matching; `net` is the player's
      remaining balance while the matching runs. */
  datatype NetEntry = NetEntry(name: string, id: string, net: int)

  /** One emitted debt: `borrower` pays `amount` to `lender`. */
  datatype Transfer = Transfer(lender: string, borrower: string, amount: int)

  /** A transfer by position: indices into the lender and borrower lists. */
  datatype Match = Match(lender: nat, borrower: nat, amount: int)

  function Min(a: int, b: int): int {
    if a <= b then a else b
  }

  function Abs(a: int): int {
    if a < 0 then -a else a
  }

  /** The entry of one player: a fresh object, the player record is untouched. */
  function Entry(p: Player): NetEntry {
    NetEntry(p.name, p.id, p.endgameChips - p.chips)
  }

  /** Drop the empty slots, map every player to its entry. */
  function NetChanges(slots: seq<Option<Player>>): (r: seq<NetEntry>)
    ensures |r| <= |slots|
  {
    if slots == [] then []
    else
      (match slots[0] case Some(p) => [Entry(p)] case None => []) + NetChanges(slots[1..])
  }

  predicate IsLender(e: NetEntry) {
    e.net > 0
  }

  predicate IsBorrower(e: NetEntry) {
    e.net < 0
  }

  function Lenders(es: seq<NetEntry>): seq<NetEntry> {
    Filter(es, IsLender)
  }

  function Borrowers(es: seq<NetEntry>): seq<NetEntry> {
    Filter(es, IsBorrower)
  }

  predicate AllLenders(ls: seq<NetEntry>) {
    forall k :: 0 <= k < |ls| ==> ls[k].net > 0
  }

  predicate AllBorrowers(bs: seq<NetEntry>) {
    forall k :: 0 <= k < |bs| ==> bs[k].net < 0
  }

  /** Sum of the balances of a list of entries. */
  function SumNet(es: seq<NetEntry>): int {
    if es == [] then 0 else es[0].net + SumNet(es[1..])
  }

  /** A lender cursor: `spent` of the credit of lender `i` is already paid
      out, and some of it is still owed; past the end nothing is spent. */
  predicate LenderCursor(ls: seq<NetEntry>, i: nat, spent: int) {
    && i <= |ls|
    && 0 <= spent
    && (if i < |ls| then spent < ls[i].net else spent == 0)
  }

  /** A borrower cursor: `paid` of the debt of borrower `j` is settled, and
      some of it is still open; past the end nothing is paid. */
  predicate BorrowerCursor(bs: seq<NetEntry>, j: nat, paid: int) {
    && j <= |bs|
    && 0 <= paid
    && (if j < |bs| then paid < -bs[j].net else paid == 0)
  }

  /** The two-cursor matching as a recursive definition. In each step the
      amount is the smaller of the current lender's remaining credit and the
      current borrower's remaining debt; a cursor moves on exactly when its
      remainder reaches 0, and the matching stops when either list is used up. */
  function Greedy(ls: seq<NetEntry>, bs: seq<NetEntry>, i: nat, j: nat, spent: int, paid: int): (r: seq<Match>)
    requires AllLenders(ls) && AllBorrowers(bs)
    requires LenderCursor(ls, i, spent) && BorrowerCursor(bs, j, paid)
    ensures InRange(ls, bs, r)
    decreases |ls| - i + |bs| - j
  {
    if i == |ls| || j == |bs| then []
    else
      var credit := ls[i].net - spent;
      var balance := bs[j].net + paid;
      var amount := Min(credit, Abs(balance));
      var lenderDone := credit - amount == 0;
      var borrowerDone := balance + amount == 0;
      [Match(i, j, amount)] +
      Greedy(ls, bs,
             if lenderDone then i + 1 else i, if borrowerDone then j + 1 else j,
             if lenderDone then 0 else spent + amount, if borrowerDone then 0 else paid + amount)
  }

  predicate InRange(ls: seq<NetEntry>, bs: seq<NetEntry>, ms: seq<Match>) {
    forall k :: 0 <= k < |ms| ==> ms[k].lender < |ls| && ms[k].borrower < |bs|
  }

  /** Matches by position turned into transfers by name. */
  function Transfers(ls: seq<NetEntry>, bs: seq<NetEntry>, ms: seq<Match>): (r: seq<Transfer>)
    requires InRange(ls, bs, ms)
  {
    seq(|ms|, k requires 0 <= k < |ms| => Transfer(ls[ms[k].lender].name, bs[ms[k].borrower].name, ms[k].amount))
  }

  /** The whole matching, by position, for a table. */
  function SettlementMatches(slots: seq<Option<Player>>): (r: seq<Match>)
    ensures InRange(Lenders(NetChanges(slots)), Borrowers(NetChanges(slots)), r)
  {
    var es := NetChanges(slots);
    Greedy(Lenders(es), Borrowers(es), 0, 0, 0, 0)
  }

  /** `calculateTransactions` as a function of the table. */
  function Transactions(slots: seq<Option<Player>>): (r: seq<Transfer>)
    ensures |r| == |SettlementMatches(slots)|
  {
    var es := NetChanges(slots);
    Transfers(Lenders(es), Borrowers(es), SettlementMatches(slots))
  }

  /** Sum of the amounts of a list of transfers. */
  function Total(ts: seq<Transfer>): int {
    if ts == [] then 0 else ts[0].amount + Total(ts[1..])
  }

  /** Zero-net players drop out: the balances of the lenders and the
      borrowers together make up the balance of the whole table. */
  lemma {:induction false} SumNetSplit(es: seq<NetEntry>)
    ensures SumNet(es) == SumNet(Lenders(es)) + SumNet(Borrowers(es))
  {
    if es != [] {
      SumNetSplit(es[1..]);
      var head := es[0];
      if IsLender(head) {
        assert Lenders(es) == [head] + Lenders(es[1..]);
        assert Borrowers(es) == [] + Borrowers(es[1..]) == Borrowers(es[1..]);
        SumNetCons(head, Lenders(es[1..]));
      } else if IsBorrower(head) {
        assert Lenders(es) == [] + Lenders(es[1..]) == Lenders(es[1..]);
        assert Borrowers(es) == [head] + Borrowers(es[1..]);
        SumNetCons(head, Borrowers(es[1..]));
      } else {
        assert Lenders(es) == [] + Lenders(es[1..]) == Lenders(es[1..]);
        assert Borrowers(es) == [] + Borrowers(es[1..]) == Borrowers(es[1..]);
      }
    }
  }

  lemma SumNetCons(e: NetEntry, es: seq<NetEntry>)
    ensures SumNet([e] + es) == e.net + SumNet(es)
  {
    assert ([e] + es)[1..] == es;
  }

  /** Changing one balance changes the sum by the difference. */
  lemma {:induction false} SumNetUpdate(es: seq<NetEntry>, k: nat, e: NetEntry)
    requires k < |es|
    ensures SumNet(es[k := e]) == SumNet(es) - es[k].net + e.net
  {
    if k > 0 {
      assert es[k := e][1..] == es[1..][k - 1 := e];
      SumNetUpdate(es[1..], k - 1, e);
    } else {
      assert es[k := e][1..] == es[1..];
    }
  }

  /** Balances of one sign add up to a sum of that sign, and to 0 only when
      every one of them is 0. */
  lemma {:induction false} SumNetSign(es: seq<NetEntry>)
    ensures (forall k :: 0 <= k < |es| ==> es[k].net >= 0) ==>
              SumNet(es) >= 0 && (SumNet(es) == 0 ==> forall k :: 0 <= k < |es| ==> es[k].net == 0)
    ensures (forall k :: 0 <= k < |es| ==> es[k].net <= 0) ==>
              SumNet(es) <= 0 && (SumNet(es) == 0 ==> forall k :: 0 <= k < |es| ==> es[k].net == 0)
  {
    if es != [] {
      SumNetSign(es[1..]);
      assert forall k :: 1 <= k < |es| ==> es[k] == es[1..][k - 1];
    }
  }

  /** One step of the matching, as the loop performs it: the transfer of
      `amount` at the current cursors, then the matching from the cursors
      the step leaves behind. */
  lemma GreedyStep(ls: seq<NetEntry>, bs: seq<NetEntry>, i: nat, j: nat, spent: int, paid: int,
                   amount: int, i': nat, j': nat, spent': int, paid': int)
    requires AllLenders(ls) && AllBorrowers(bs)
    requires LenderCursor(ls, i, spent) && BorrowerCursor(bs, j, paid)
    requires i < |ls| && j < |bs|
    requires amount == Min(ls[i].net - spent, Abs(bs[j].net + paid))
    requires var lenderDone := ls[i].net - spent - amount == 0;
      && i' == (if lenderDone then i + 1 else i) && spent' == (if lenderDone then 0 else spent + amount)
    requires var borrowerDone := bs[j].net + paid + amount == 0;
      && j' == (if borrowerDone then j + 1 else j) && paid' == (if borrowerDone then 0 else paid + amount)
    ensures LenderCursor(ls, i', spent') && BorrowerCursor(bs, j', paid')
    ensures Transfers(ls, bs, Greedy(ls, bs, i, j, spent, paid))
              == [Transfer(ls[i].name, bs[j].name, amount)] + Transfers(ls, bs, Greedy(ls, bs, i', j', spent', paid'))
  {
    var rest := Greedy(ls, bs, i', j', spent', paid');
    assert Greedy(ls, bs, i, j, spent, paid) == [Match(i, j, amount)] + rest;
    TransfersCons(ls, bs, Match(i, j, amount), rest);
  }

  /** Turning matches into transfers goes match by match. */
  lemma TransfersCons(ls: seq<NetEntry>, bs: seq<NetEntry>, m: Match, ms: seq<Match>)
    requires m.lender < |ls| && m.borrower < |bs| && InRange(ls, bs, ms)
    ensures InRange(ls, bs, [m] + ms)
    ensures Transfers(ls, bs, [m] + ms)
              == [Transfer(ls[m.lender].name, bs[m.borrower].name, m.amount)] + Transfers(ls, bs, ms)
  {
    assert forall k :: 0 < k < |ms| + 1 ==> ([m] + ms)[k] == ms[k - 1];
  }

  /** The lender list as the loop leaves it at cursor `i`: same players,
      everyone before `i` fully paid, `i` partly paid, everyone after untouched. */
  predicate LenderProgress(ls: seq<NetEntry>, cur: seq<NetEntry>, i: nat) {
    && |cur| == |ls| && i <= |ls|
    && (forall k :: 0 <= k < |ls| ==> cur[k] == ls[k].(net := cur[k].net))
    && (forall k :: 0 <= k < i ==> cur[k].net == 0)
    && (forall k :: i < k < |ls| ==> cur[k].net == ls[k].net)
    && (i < |ls| ==> 0 < cur[i].net <= ls[i].net)
  }

  /** The borrower list as the loop leaves it at cursor `j`. */
  predicate BorrowerProgress(bs: seq<NetEntry>, cur: seq<NetEntry>, j: nat) {
    && |cur| == |bs| && j <= |bs|
    && (forall k :: 0 <= k < |bs| ==> cur[k] == bs[k].(net := cur[k].net))
    && (forall k :: 0 <= k < j ==> cur[k].net == 0)
    && (forall k :: j < k < |bs| ==> cur[k].net == bs[k].net)
    && (j < |bs| ==> bs[j].net <= cur[j].net < 0)
  }

  /** Paying `amount` out of the current lender keeps the shape, and the
      cursor moves on exactly when that lender is paid in full. */
  lemma LenderPays(ls: seq<NetEntry>, cur: seq<NetEntry>, i: nat, amount: int)
    requires AllLenders(ls) && LenderProgress(ls, cur, i)
    requires i < |ls| && 0 < amount <= cur[i].net
    ensures var cur' := cur[i := cur[i].(net := cur[i].net - amount)];
      LenderProgress(ls, cur', if cur'[i].net == 0 then i + 1 else i)
  {
  }

  /** Settling `amount` of the current borrower's debt keeps the shape. */
  lemma BorrowerPays(bs: seq<NetEntry>, cur: seq<NetEntry>, j: nat, amount: int)
    requires AllBorrowers(bs) && BorrowerProgress(bs, cur, j)
    requires j < |bs| && 0 < amount <= -cur[j].net
    ensures var cur' := cur[j := cur[j].(net := cur[j].net + amount)];
      BorrowerProgress(bs, cur', if cur'[j].net == 0 then j + 1 else j)
  {
  }

  /** Every remainder stays between 0 and the original balance. */
  lemma ProgressBounds(ls: seq<NetEntry>, lcur: seq<NetEntry>, i: nat, bs: seq<NetEntry>, bcur: seq<NetEntry>, j: nat)
    requires AllLenders(ls) && LenderProgress(ls, lcur, i)
    requires AllBorrowers(bs) && BorrowerProgress(bs, bcur, j)
    ensures forall k :: 0 <= k < |ls| ==> 0 <= lcur[k].net <= ls[k].net
    ensures forall k :: 0 <= k < |bs| ==> bs[k].net <= bcur[k].net <= 0
    ensures SumNet(lcur) >= 0 && SumNet(bcur) <= 0
    ensures i == |ls| ==> SumNet(lcur) == 0
    ensures j == |bs| ==> SumNet(bcur) == 0
  {
    SumNetSign(lcur);
    SumNetSign(bcur);
  }

  /** How much of the current lender's credit the loop has paid out. */
  function Spent(ls: seq<NetEntry>, cur: seq<NetEntry>, i: nat): int
    requires |cur| == |ls|
  {
    if i < |ls| then ls[i].net - cur[i].net else 0
  }

  /** How much of the current borrower's debt the loop has settled. */
  function Paid(bs: seq<NetEntry>, cur: seq<NetEntry>, j: nat): int
    requires |cur| == |bs|
  {
    if j < |bs| then cur[j].net - bs[j].net else 0
  }

  /** The loop invariant of `calculateTransactions`: the working lists have
      the shape the cursors say, every amount transferred so far has left
      the lenders and reached the borrowers, and what is emitted so far
      followed by the matching from the current cursors is the whole matching. */
  predicate LoopInv(ls: seq<NetEntry>, bs: seq<NetEntry>, lenders: seq<NetEntry>, borrowers: seq<NetEntry>,
                    i: nat, j: nat, txs: seq<Transfer>)
  {
    && AllLenders(ls) && AllBorrowers(bs)
    && LenderProgress(ls, lenders, i) && BorrowerProgress(bs, borrowers, j)
    && SumNet(lenders) == SumNet(ls) - Total(txs)
    && SumNet(borrowers) == SumNet(bs) + Total(txs)
    && LenderCursor(ls, i, Spent(ls, lenders, i)) && BorrowerCursor(bs, j, Paid(bs, borrowers, j))
    && txs + Transfers(ls, bs, Greedy(ls, bs, i, j, Spent(ls, lenders, i), Paid(bs, borrowers, j)))
       == Transfers(ls, bs, Greedy(ls, bs, 0, 0, 0, 0))
  }

  /** One iteration of the loop keeps the invariant. */
  lemma LoopStep(ls: seq<NetEntry>, bs: seq<NetEntry>, lenders: seq<NetEntry>, borrowers: seq<NetEntry>,
                 i: nat, j: nat, txs: seq<Transfer>, amount: int,
                 lenders': seq<NetEntry>, borrowers': seq<NetEntry>, i': nat, j': nat, txs': seq<Transfer>)
    requires LoopInv(ls, bs, lenders, borrowers, i, j, txs) && i < |ls| && j < |bs|
    requires amount == Min(lenders[i].net, Abs(borrowers[j].net))
    requires txs' == txs + [Transfer(lenders[i].name, borrowers[j].name, amount)]
    requires lenders' == lenders[i := lenders[i].(net := lenders[i].net - amount)]
    requires borrowers' == borrowers[j := borrowers[j].(net := borrowers[j].net + amount)]
    requires i' == if lenders'[i].net == 0 then i + 1 else i
    requires j' == if borrowers'[j].net == 0 then j + 1 else j
    ensures LoopInv(ls, bs, lenders', borrowers', i', j', txs')
  {
    var tx := Transfer(lenders[i].name, borrowers[j].name, amount);
    TotalSnoc(txs, tx);
    SumNetUpdate(lenders, i, lenders[i].(net := lenders[i].net - amount));
    SumNetUpdate(borrowers, j, borrowers[j].(net := borrowers[j].net + amount));
    LenderPays(ls, lenders, i, amount);
    BorrowerPays(bs, borrowers, j, amount);
    var spent, paid := Spent(ls, lenders, i), Paid(bs, borrowers, j);
    var spent', paid' := Spent(ls, lenders', i'), Paid(bs, borrowers', j');
    GreedyStep(ls, bs, i, j, spent, paid, amount, i', j', spent', paid');
    AppendAssoc(txs, [tx], Transfers(ls, bs, Greedy(ls, bs, i', j', spent', paid')));
  }

  /** What the loop leaves behind: the same players, each remainder between
      0 and the original balance, the transferred total taken off the
      lenders and added to the borrowers, that total as large as the smaller
      side allows, and one side fully settled. */
  predicate Settled(ls: seq<NetEntry>, bs: seq<NetEntry>, txs: seq<Transfer>,
                    lendersLeft: seq<NetEntry>, borrowersLeft: seq<NetEntry>)
  {
    && |lendersLeft| == |ls| && |borrowersLeft| == |bs|
    && (forall k :: 0 <= k < |ls| ==>
          lendersLeft[k] == ls[k].(net := lendersLeft[k].net) && 0 <= lendersLeft[k].net <= ls[k].net)
    && (forall k :: 0 <= k < |bs| ==>
          borrowersLeft[k] == bs[k].(net := borrowersLeft[k].net) && bs[k].net <= borrowersLeft[k].net <= 0)
    && SumNet(lendersLeft) == SumNet(ls) - Total(txs)
    && SumNet(borrowersLeft) == SumNet(bs) + Total(txs)
    && Total(txs) == Min(SumNet(ls), -SumNet(bs))
    && (AllZero(lendersLeft) || AllZero(borrowersLeft))
  }

  /** Every balance in the list is settled. */
  predicate AllZero(es: seq<NetEntry>) {
    forall k :: 0 <= k < |es| ==> es[k].net == 0
  }

  /** Before the first iteration nothing is emitted and nothing is paid. */
  lemma LoopInit(ls: seq<NetEntry>, bs: seq<NetEntry>)
    requires AllLenders(ls) && AllBorrowers(bs)
    ensures LoopInv(ls, bs, ls, bs, 0, 0, [])
  {
    AppendNil(Transfers(ls, bs, Greedy(ls, bs, 0, 0, 0, 0)));
  }

  /** When a cursor has run off its list, the matching is complete and one
      side is fully settled. */
  lemma LoopExit(ls: seq<NetEntry>, bs: seq<NetEntry>, lendersLeft: seq<NetEntry>, borrowersLeft: seq<NetEntry>,
                 i: nat, j: nat, txs: seq<Transfer>)
    requires LoopInv(ls, bs, lendersLeft, borrowersLeft, i, j, txs)
    requires i == |ls| || j == |bs|
    ensures txs == Transfers(ls, bs, Greedy(ls, bs, 0, 0, 0, 0))
    ensures Settled(ls, bs, txs, lendersLeft, borrowersLeft)
  {
    assert Greedy(ls, bs, i, j, Spent(ls, lendersLeft, i), Paid(bs, borrowersLeft, j)) == [];
    AppendNil(txs);
    ExitSettled(ls, bs, lendersLeft, borrowersLeft, i, j, txs);
  }

  /** The balances part of the exit: only the shape of the lists and the
      running totals matter here, not the matching itself. */
  lemma ExitSettled(ls: seq<NetEntry>, bs: seq<NetEntry>, lendersLeft: seq<NetEntry>, borrowersLeft: seq<NetEntry>,
                    i: nat, j: nat, txs: seq<Transfer>)
    requires AllLenders(ls) && AllBorrowers(bs)
    requires LenderProgress(ls, lendersLeft, i) && BorrowerProgress(bs, borrowersLeft, j)
    requires SumNet(lendersLeft) == SumNet(ls) - Total(txs)
    requires SumNet(borrowersLeft) == SumNet(bs) + Total(txs)
    requires i == |ls| || j == |bs|
    ensures Settled(ls, bs, txs, lendersLeft, borrowersLeft)
  {
    ProgressBounds(ls, lendersLeft, i, bs, borrowersLeft, j);
  }

  /** The two-cursor loop itself, over lists of strictly positive lenders and
      strictly negative borrowers. */
  method MatchDebts(ls: seq<NetEntry>, bs: seq<NetEntry>)
    returns (txs: seq<Transfer>, lendersLeft: seq<NetEntry>, borrowersLeft: seq<NetEntry>)
    requires AllLenders(ls) && AllBorrowers(bs)
    ensures txs == Transfers(ls, bs, Greedy(ls, bs, 0, 0, 0, 0))
    ensures Settled(ls, bs, txs, lendersLeft, borrowersLeft)
  {
    var lenders, borrowers := ls, bs;
    txs := [];
    var i, j := 0, 0;
    LoopInit(ls, bs);
    while i < |lenders| && j < |borrowers|
      invariant LoopInv(ls, bs, lenders, borrowers, i, j, txs)
      decreases |ls| - i + |bs| - j
    {
      var amount := Min(lenders[i].net, Abs(borrowers[j].net));
      ghost var lenders0, borrowers0, i0, j0, txs0 := lenders, borrowers, i, j, txs;
      txs := txs + [Transfer(lenders[i].name, borrowers[j].name, amount)];
      lenders := lenders[i := lenders[i].(net := lenders[i].net - amount)];
      borrowers := borrowers[j := borrowers[j].(net := borrowers[j].net + amount)];
      if lenders[i].net == 0 {
        i := i + 1;
      }
      if borrowers[j].net == 0 {
        j := j + 1;
      }
      LoopStep(ls, bs, lenders0, borrowers0, i0, j0, txs0, amount, lenders, borrowers, i, j, txs);
    }
    lendersLeft, borrowersLeft := lenders, borrowers;
    LoopExit(ls, bs, lendersLeft, borrowersLeft, i, j, txs);
  }

  lemma {:induction false} TotalSnoc(ts: seq<Transfer>, t: Transfer)
    ensures Total(ts + [t]) == Total(ts) + t.amount
  {
    if ts != [] {
      assert (ts + [t])[1..] == ts[1..] + [t];
      TotalSnoc(ts[1..], t);
    } else {
      assert [] + [t] == [t];
    }
  }

  /** `calculateTransactions`: net changes of the occupied slots, lenders
      and borrowers in table order, then the two-cursor loop. The working
      lists it leaves behind are local to `calculateTransactions`
      and dropped here. */
  method CalculateTransactions(slots: seq<Option<Player>>) returns (txs: seq<Transfer>)
    ensures txs == Transactions(slots)
  {
    var entries := NetChanges(slots);
    var lenders := Lenders(entries);
    var borrowers := Borrowers(entries);
    var lendersLeft, borrowersLeft;
    txs, lendersLeft, borrowersLeft := MatchDebts(lenders, borrowers);
  }

  /** When credit and debt balance, the loop leaves every lender and every
      borrower at exactly 0. */
  lemma BalancedLeavesNothing(ls: seq<NetEntry>, bs: seq<NetEntry>, txs: seq<Transfer>,
                              lendersLeft: seq<NetEntry>, borrowersLeft: seq<NetEntry>)
    requires AllLenders(ls) && AllBorrowers(bs)
    requires Settled(ls, bs, txs, lendersLeft, borrowersLeft)
    requires SumNet(ls) + SumNet(bs) == 0
    ensures AllZero(lendersLeft) && AllZero(borrowersLeft)
  {
    SumNetSign(lendersLeft);
    SumNetSign(borrowersLeft);
  }
}

=== FILE: settlement_props.dfy ===
/** Properties of the greedy settlement, stated on its recursive definition
    and lifted to whole tables: who appears in the lender and borrower
    lists, how much money moves, how many transfers there are, and in what
    order they come. */
module SettlementProperties {
  import opened Wrappers
  import opened Seqs
  import opened Records
  import opened Settlement

  // ---------------------------------------------------------------------
  // Net changes

  predicate IsSeated(slot: Option<Player>) {
    slot.Some?
  }

  /** Reference definition of the net-change list: one entry per occupied
      slot, in slot order. */
  function EntriesOf(seated: seq<Option<Player>>): (r: seq<NetEntry>)
    requires forall k :: 0 <= k < |seated| ==> seated[k].Some?
    ensures |r| == |seated|
  {
    seq(|seated|, k requires 0 <= k < |seated| => Entry(seated[k].value))
  }

  /** Every occupied slot contributes exactly one entry, in slot order, with
      net change `endgameChips - chips`; empty slots contribute nothing. */
  lemma {:induction false} NetChangesOfSeated(slots: seq<Option<Player>>)
    ensures NetChanges(slots) == EntriesOf(Filter(slots, IsSeated))
  {
    if slots != [] {
      NetChangesOfSeated(slots[1..]);
      var rest := Filter(slots[1..], IsSeated);
      if slots[0].Some? {
        var full := Filter(slots, IsSeated);
        assert full == [slots[0]] + rest;
        assert forall k :: 0 < k < |full| ==> full[k] == rest[k - 1];
      } else {
        assert Filter(slots, IsSeated) == [] + rest;
        AppendNil(rest);
      }
    }
  }

  /** The balance of the whole table is what the players hold at the end
      minus what they bought in for. */
  lemma {:induction false} NetChangesSum(slots: seq<Option<Player>>)
    ensures SumNet(NetChanges(slots)) == TotalEndgameChips(slots) - TotalChips(slots)
  {
    if slots != [] {
      NetChangesSum(slots[1..]);
      match slots[0]
      case Some(p) => SumNetCons(Entry(p), NetChanges(slots[1..]));
      case None => AppendNil(NetChanges(slots[1..]));
    }
  }

  /** Net changes of two parts of a table, side by side. */
  lemma {:induction false} NetChangesAppend(a: seq<Option<Player>>, b: seq<Option<Player>>)
    ensures NetChanges(a + b) == NetChanges(a) + NetChanges(b)
  {
    if a == [] {
      assert a + b == b;
    } else {
      assert (a + b)[0] == a[0] && (a + b)[1..] == a[1..] + b;
      NetChangesAppend(a[1..], b);
      AppendAssoc(match a[0] case Some(p) => [Entry(p)] case None => [], NetChanges(a[1..]), NetChanges(b));
    }
  }

  /** Seating a player who broke even in an empty slot changes neither the
      lenders nor the borrowers, so it changes no transfer. */
  lemma BreakEvenSeated(slots: seq<Option<Player>>, k: nat, p: Player)
    requires k < |slots| && slots[k].None? && p.endgameChips == p.chips
    ensures var es, es' := NetChanges(slots), NetChanges(slots[k := Some(p)]);
      Lenders(es') == Lenders(es) && Borrowers(es') == Borrowers(es)
    ensures Transactions(slots[k := Some(p)]) == Transactions(slots)
  {
    var before, after := slots[..k], slots[k + 1..];
    assert slots == before + ([None] + after);
    assert slots[k := Some(p)] == before + ([Some(p)] + after);
    NetChangesAround(before, None, after);
    NetChangesAround(before, Some(p), after);
    var a, b := NetChanges(before), NetChanges(after);
    AppendNil(b);
    ZeroDropsOut(a, Entry(p), b);
  }

  /** The net changes of a table split around one slot. */
  lemma NetChangesAround(before: seq<Option<Player>>, slot: Option<Player>, after: seq<Option<Player>>)
    ensures NetChanges(before + ([slot] + after))
              == NetChanges(before) + ((match slot case Some(p) => [Entry(p)] case None => []) + NetChanges(after))
  {
    NetChangesAppend(before, [slot] + after);
    assert ([slot] + after)[0] == slot && ([slot] + after)[1..] == after;
  }

  /** An entry that broke even is in neither list. */
  lemma ZeroDropsOut(a: seq<NetEntry>, e: NetEntry, b: seq<NetEntry>)
    requires e.net == 0
    ensures Lenders(a + ([e] + b)) == Lenders(a + b) && Borrowers(a + ([e] + b)) == Borrowers(a + b)
  {
    FilterAppend(a, [e] + b, IsLender);
    FilterAppend(a, [e] + b, IsBorrower);
    FilterAppend(a, b, IsLender);
    FilterAppend(a, b, IsBorrower);
    assert ([e] + b)[1..] == b;
  }

  /** The lenders are exactly the entries with a gain and the borrowers
      exactly those with a loss; a player who broke even is in neither list. */
  lemma LendersAndBorrowers(es: seq<NetEntry>)
    ensures forall e :: e in Lenders(es) <==> e in es && e.net > 0
    ensures forall e :: e in Borrowers(es) <==> e in es && e.net < 0
    ensures forall e :: e in es && e.net == 0 ==> e !in Lenders(es) && e !in Borrowers(es)
  {
    FilterMembers(es, IsLender);
    FilterMembers(es, IsBorrower);
  }

  // ---------------------------------------------------------------------
  // The greedy matching, from any pair of cursors

  /** Consecutive matches: neither cursor moves back and at least one moves on. */
  predicate Precedes(a: Match, b: Match) {
    && a.lender <= b.lender && a.borrower <= b.borrower
    && (a.lender < b.lender || a.borrower < b.borrower)
  }

  predicate Advancing(ms: seq<Match>) {
    forall k :: 0 <= k < |ms| - 1 ==> Precedes(ms[k], ms[k + 1])
  }

  /** The arguments of `Greedy`: the lender and borrower positions, and how
      much of the current lender's credit is spent and of the current
      borrower's debt is paid. */
  datatype Cursors = Cursors(i: nat, j: nat, spent: int, paid: int)

  function StepAmount(ls: seq<NetEntry>, bs: seq<NetEntry>, c: Cursors): int
    requires c.i < |ls| && c.j < |bs|
  {
    Min(ls[c.i].net - c.spent, Abs(bs[c.j].net + c.paid))
  }

  /** The cursors after the first step of `Greedy`, exactly as its body
      computes them. */
  function NextCursors(ls: seq<NetEntry>, bs: seq<NetEntry>, c: Cursors): Cursors
    requires c.i < |ls| && c.j < |bs|
  {
    var amount := StepAmount(ls, bs, c);
    var lenderDone := ls[c.i].net - c.spent - amount == 0;
    var borrowerDone := bs[c.j].net + c.paid + amount == 0;
    Cursors(if lenderDone then c.i + 1 else c.i, if borrowerDone then c.j + 1 else c.j,
            if lenderDone then 0 else c.spent + amount, if borrowerDone then 0 else c.paid + amount)
  }

  predicate Valid(ls: seq<NetEntry>, bs: seq<NetEntry>, c: Cursors) {
    AllLenders(ls) && AllBorrowers(bs) && LenderCursor(ls, c.i, c.spent) && BorrowerCursor(bs, c.j, c.paid)
  }

  function Run(ls: seq<NetEntry>, bs: seq<NetEntry>, c: Cursors): seq<Match>
    requires Valid(ls, bs, c)
  {
    Greedy(ls, bs, c.i, c.j, c.spent, c.paid)
  }

  /** One step: the amount is positive and within both remainders, at least
      one cursor moves on, and the matching continues from the new cursors. */
  lemma Step(ls: seq<NetEntry>, bs: seq<NetEntry>, c: Cursors)
    requires Valid(ls, bs, c) && c.i < |ls| && c.j < |bs|
    ensures var n := NextCursors(ls, bs, c);
      && Valid(ls, bs, n)
      && 0 < StepAmount(ls, bs, c) <= ls[c.i].net - c.spent
      && StepAmount(ls, bs, c) <= -(bs[c.j].net + c.paid)
      && c.i <= n.i && c.j <= n.j && (c.i < n.i || c.j < n.j)
      && Run(ls, bs, c) == [Match(c.i, c.j, StepAmount(ls, bs, c))] + Run(ls, bs, n)
  {
  }

  /** No transfers exactly when a list is used up; otherwise at most one
      fewer transfer than players left on both sides, since every step
      retires a lender or a borrower and the last step retires both or
      leaves the other side unreached. */
  lemma {:induction false} GreedyCount(ls: seq<NetEntry>, bs: seq<NetEntry>, c: Cursors)
    requires Valid(ls, bs, c)
    ensures Run(ls, bs, c) == [] <==> c.i == |ls| || c.j == |bs|
    ensures Run(ls, bs, c) != [] ==> |Run(ls, bs, c)| <= (|ls| - c.i) + (|bs| - c.j) - 1
    decreases |ls| - c.i + |bs| - c.j
  {
    if c.i < |ls| && c.j < |bs| {
      Step(ls, bs, c);
      GreedyCount(ls, bs, NextCursors(ls, bs, c));
    }
  }

  /** The matching starts at the cursors, never goes back, and moves at
      least one cursor between consecutive transfers; so no
      lender-borrower pair is matched twice. */
  lemma {:induction false} GreedyOrder(ls: seq<NetEntry>, bs: seq<NetEntry>, c: Cursors)
    requires Valid(ls, bs, c)
    ensures var r := Run(ls, bs, c);
      && Advancing(r)
      && (r != [] ==> r[0].lender == c.i && r[0].borrower == c.j)
      && (forall k :: 0 <= k < |r| ==> c.i <= r[k].lender && c.j <= r[k].borrower)
    decreases |ls| - c.i + |bs| - c.j
  {
    if c.i < |ls| && c.j < |bs| {
      Step(ls, bs, c);
      var n := NextCursors(ls, bs, c);
      GreedyOrder(ls, bs, n);
      var r, rest := Run(ls, bs, c), Run(ls, bs, n);
      assert forall k :: 0 < k < |r| ==> r[k] == rest[k - 1];
    }
  }

  /** Every amount is strictly positive and never more than the balance of
      the lender or of the borrower it is charged to. */
  lemma {:induction false} GreedyAmounts(ls: seq<NetEntry>, bs: seq<NetEntry>, c: Cursors)
    requires Valid(ls, bs, c)
    ensures var r := Run(ls, bs, c);
      forall k :: 0 <= k < |r| ==>
        0 < r[k].amount && r[k].amount <= ls[r[k].lender].net && r[k].amount <= -bs[r[k].borrower].net
    decreases |ls| - c.i + |bs| - c.j
  {
    if c.i < |ls| && c.j < |bs| {
      Step(ls, bs, c);
      var n := NextCursors(ls, bs, c);
      GreedyAmounts(ls, bs, n);
      var r, rest := Run(ls, bs, c), Run(ls, bs, n);
      assert forall k :: 0 < k < |r| ==> r[k] == rest[k - 1];
    }
  }

  /** The credit still open from the lender cursor on. */
  function Credit(ls: seq<NetEntry>, c: Cursors): int
    requires c.i <= |ls|
  {
    SumNet(ls[c.i..]) - c.spent
  }

  /** The debt still open from the borrower cursor on. */
  function Debt(bs: seq<NetEntry>, c: Cursors): int
    requires c.j <= |bs|
  {
    -SumNet(bs[c.j..]) - c.paid
  }

  /** A step takes its amount off both the open credit and the open debt. */
  lemma StepRemaining(ls: seq<NetEntry>, bs: seq<NetEntry>, c: Cursors)
    requires Valid(ls, bs, c) && c.i < |ls| && c.j < |bs|
    ensures var n := NextCursors(ls, bs, c);
      && n.i <= |ls| && n.j <= |bs|
      && Credit(ls, n) == Credit(ls, c) - StepAmount(ls, bs, c)
      && Debt(bs, n) == Debt(bs, c) - StepAmount(ls, bs, c)
  {
    Step(ls, bs, c);
    SumNetTail(ls, c.i);
    SumNetTail(bs, c.j);
  }

  /** Open credit and open debt are never negative, and nothing is open
      past the end of a list. */
  lemma RemainingSign(ls: seq<NetEntry>, bs: seq<NetEntry>, c: Cursors)
    requires Valid(ls, bs, c)
    ensures Credit(ls, c) >= 0 && (c.i == |ls| ==> Credit(ls, c) == 0)
    ensures Debt(bs, c) >= 0 && (c.j == |bs| ==> Debt(bs, c) == 0)
  {
    if c.i < |ls| {
      SumNetTail(ls, c.i);
      SuffixSign(ls, c.i + 1);
    } else {
      assert ls[c.i..] == [];
    }
    if c.j < |bs| {
      SumNetTail(bs, c.j);
      SuffixSign(bs, c.j + 1);
    } else {
      assert bs[c.j..] == [];
    }
  }

  /** A suffix of a list of lenders (borrowers) sums to a gain (a loss). */
  lemma SuffixSign(es: seq<NetEntry>, i: nat)
    requires i <= |es|
    ensures AllLenders(es) ==> SumNet(es[i..]) >= 0
    ensures AllBorrowers(es) ==> SumNet(es[i..]) <= 0
  {
    var t := es[i..];
    assert forall k :: 0 <= k < |t| ==> t[k] == es[i + k];
    SumNetSign(t);
  }

  /** The money moved from the cursors on is the smaller of the credit and
      the debt still open there. */
  lemma {:induction false} GreedyTotal(ls: seq<NetEntry>, bs: seq<NetEntry>, c: Cursors)
    requires Valid(ls, bs, c)
    ensures Total(Transfers(ls, bs, Run(ls, bs, c))) == Min(Credit(ls, c), Debt(bs, c))
    decreases |ls| - c.i + |bs| - c.j
  {
    RemainingSign(ls, bs, c);
    if c.i < |ls| && c.j < |bs| {
      Step(ls, bs, c);
      StepRemaining(ls, bs, c);
      var n := NextCursors(ls, bs, c);
      var amount := StepAmount(ls, bs, c);
      GreedyTotal(ls, bs, n);
      TransfersCons(ls, bs, Match(c.i, c.j, amount), Run(ls, bs, n));
      TotalCons(Transfer(ls[c.i].name, bs[c.j].name, amount), Transfers(ls, bs, Run(ls, bs, n)));
      MinShift(amount, Credit(ls, c), Debt(bs, c));
    }
  }

  lemma MinShift(a: int, x: int, y: int)
    ensures a + Min(x - a, y - a) == Min(x, y)
  {
  }

  lemma TotalCons(t: Transfer, ts: seq<Transfer>)
    ensures Total([t] + ts) == t.amount + Total(ts)
  {
    assert ([t] + ts)[1..] == ts;
  }

  lemma SumNetTail(es: seq<NetEntry>, i: nat)
    requires i < |es|
    ensures SumNet(es[i..]) == es[i].net + SumNet(es[i + 1..])
  {
    assert es[i..][1..] == es[i + 1..];
  }

  /** What the lender at position `k` receives over a list of matches. */
  function ReceivedBy(ms: seq<Match>, k: nat): int {
    if ms == [] then 0 else (if ms[0].lender == k then ms[0].amount else 0) + ReceivedBy(ms[1..], k)
  }

  /** What the borrower at position `k` pays over a list of matches. */
  function PaidBy(ms: seq<Match>, k: nat): int {
    if ms == [] then 0 else (if ms[0].borrower == k then ms[0].amount else 0) + PaidBy(ms[1..], k)
  }

  lemma PaymentsCons(m: Match, ms: seq<Match>, k: nat)
    ensures ReceivedBy([m] + ms, k) == (if m.lender == k then m.amount else 0) + ReceivedBy(ms, k)
    ensures PaidBy([m] + ms, k) == (if m.borrower == k then m.amount else 0) + PaidBy(ms, k)
  {
    assert ([m] + ms)[1..] == ms;
  }

  /** A lender (borrower) position no match names receives (pays) nothing. */
  lemma {:induction false} PaymentsUnnamed(ms: seq<Match>, k: nat)
    ensures (forall t :: 0 <= t < |ms| ==> ms[t].lender != k) ==> ReceivedBy(ms, k) == 0
    ensures (forall t :: 0 <= t < |ms| ==> ms[t].borrower != k) ==> PaidBy(ms, k) == 0
  {
    if ms != [] {
      PaymentsUnnamed(ms[1..], k);
      assert forall t :: 1 <= t < |ms| ==> ms[1..][t - 1] == ms[t];
    }
  }

  /** Open credit is positive while a lender is left, open debt while a
      borrower is left. */
  lemma OpenWhileLeft(ls: seq<NetEntry>, bs: seq<NetEntry>, c: Cursors)
    requires Valid(ls, bs, c)
    ensures c.i < |ls| ==> Credit(ls, c) > 0
    ensures c.j < |bs| ==> Debt(bs, c) > 0
  {
    if c.i < |ls| {
      SumNetTail(ls, c.i);
      SuffixSign(ls, c.i + 1);
    }
    if c.j < |bs| {
      SumNetTail(bs, c.j);
      SuffixSign(bs, c.j + 1);
    }
  }

  /** When the debt still open covers the open credit, every lender from
      the cursor on receives exactly what is still owed to them: the whole
      gain, less what the current lender was already paid. */
  lemma {:induction false} GreedyPaysLenders(ls: seq<NetEntry>, bs: seq<NetEntry>, c: Cursors)
    requires Valid(ls, bs, c) && Credit(ls, c) <= Debt(bs, c)
    ensures var r := Run(ls, bs, c);
      forall k :: c.i <= k < |ls| ==> ReceivedBy(r, k) == ls[k].net - (if k == c.i then c.spent else 0)
    decreases |ls| - c.i + |bs| - c.j
  {
    if c.i < |ls| {
      OpenWhileLeft(ls, bs, c);
      RemainingSign(ls, bs, c);
      assert c.j < |bs|;
      Step(ls, bs, c);
      StepRemaining(ls, bs, c);
      var n := NextCursors(ls, bs, c);
      var m := Match(c.i, c.j, StepAmount(ls, bs, c));
      GreedyPaysLenders(ls, bs, n);
      GreedyOrder(ls, bs, n);
      var rest := Run(ls, bs, n);
      forall k | c.i <= k < |ls|
        ensures ReceivedBy(Run(ls, bs, c), k) == ls[k].net - (if k == c.i then c.spent else 0)
      {
        PaymentsCons(m, rest, k);
        if k == c.i && n.i > c.i {
          PaymentsUnnamed(rest, k);
        }
      }
    }
  }

  /** When the open credit covers the open debt, every borrower from the
      cursor on pays exactly what they still owe. */
  lemma {:induction false} GreedyPaysBorrowers(ls: seq<NetEntry>, bs: seq<NetEntry>, c: Cursors)
    requires Valid(ls, bs, c) && Debt(bs, c) <= Credit(ls, c)
    ensures var r := Run(ls, bs, c);
      forall k :: c.j <= k < |bs| ==> PaidBy(r, k) == -bs[k].net - (if k == c.j then c.paid else 0)
    decreases |ls| - c.i + |bs| - c.j
  {
    if c.j < |bs| {
      OpenWhileLeft(ls, bs, c);
      RemainingSign(ls, bs, c);
      assert c.i < |ls|;
      Step(ls, bs, c);
      StepRemaining(ls, bs, c);
      var n := NextCursors(ls, bs, c);
      var m := Match(c.i, c.j, StepAmount(ls, bs, c));
      GreedyPaysBorrowers(ls, bs, n);
      GreedyOrder(ls, bs, n);
      var rest := Run(ls, bs, n);
      forall k | c.j <= k < |bs|
        ensures PaidBy(Run(ls, bs, c), k) == -bs[k].net - (if k == c.j then c.paid else 0)
      {
        PaymentsCons(m, rest, k);
        if k == c.j && n.j > c.j {
          PaymentsUnnamed(rest, k);
        }
      }
    }
  }

  // ---------------------------------------------------------------------
  // Whole tables

  function Start(): Cursors {
    Cursors(0, 0, 0, 0)
  }

  /** The start of the matching is a valid cursor pair for any table. */
  lemma StartValid(slots: seq<Option<Player>>)
    ensures var es := NetChanges(slots);
      && Valid(Lenders(es), Borrowers(es), Start())
      && Run(Lenders(es), Borrowers(es), Start()) == SettlementMatches(slots)
  {
  }

  /** The money moved by the whole matching is the smaller of the total
      credit and the total debt. */
  lemma MatchingTotal(ls: seq<NetEntry>, bs: seq<NetEntry>)
    requires AllLenders(ls) && AllBorrowers(bs)
    ensures Total(Transfers(ls, bs, Greedy(ls, bs, 0, 0, 0, 0))) == Min(SumNet(ls), -SumNet(bs))
  {
    GreedyTotal(ls, bs, Start());
    assert ls[0..] == ls && bs[0..] == bs;
  }

  /** No transfers exactly when nobody won or nobody lost. */
  lemma SettlementEmpty(slots: seq<Option<Player>>)
    ensures var es := NetChanges(slots);
      Transactions(slots) == [] <==>
        (forall e :: e in es ==> e.net <= 0) || (forall e :: e in es ==> e.net >= 0)
  {
    var es := NetChanges(slots);
    StartValid(slots);
    GreedyCount(Lenders(es), Borrowers(es), Start());
    FilterEmpty(es, IsLender);
    FilterEmpty(es, IsBorrower);
  }

  /** At most one transfer fewer than there are winners and losers together. */
  lemma SettlementCount(slots: seq<Option<Player>>)
    ensures var es := NetChanges(slots);
      Transactions(slots) != [] ==> |Transactions(slots)| <= |Lenders(es)| + |Borrowers(es)| - 1
  {
    var es := NetChanges(slots);
    StartValid(slots);
    GreedyCount(Lenders(es), Borrowers(es), Start());
  }

  /** The transfers come in lender-then-borrower list order: the first one
      pairs the first winner with the first loser, and from one transfer to
      the next neither list position goes back while at least one moves on. */
  lemma SettlementOrder(slots: seq<Option<Player>>)
    ensures var ms := SettlementMatches(slots);
      && Advancing(ms)
      && (ms != [] ==> ms[0].lender == 0 && ms[0].borrower == 0)
  {
    var es := NetChanges(slots);
    StartValid(slots);
    GreedyOrder(Lenders(es), Borrowers(es), Start());
  }

  /** Money only flows from a player who lost to a player who won, and
      never more than either of them is owed or owes. */
  lemma SettlementFlow(slots: seq<Option<Player>>)
    ensures var es, ts := NetChanges(slots), Transactions(slots);
      forall k :: 0 <= k < |ts| ==>
        && 0 < ts[k].amount
        && (exists e :: e in es && e.net >= ts[k].amount && e.name == ts[k].lender)
        && (exists e :: e in es && -e.net >= ts[k].amount && e.name == ts[k].borrower)
  {
    var es, ts := NetChanges(slots), Transactions(slots);
    var ls, bs, ms := Lenders(es), Borrowers(es), SettlementMatches(slots);
    StartValid(slots);
    GreedyAmounts(ls, bs, Start());
    FilterMembers(es, IsLender);
    FilterMembers(es, IsBorrower);
    forall k | 0 <= k < |ts|
      ensures 0 < ts[k].amount
      ensures exists e :: e in es && e.net >= ts[k].amount && e.name == ts[k].lender
      ensures exists e :: e in es && -e.net >= ts[k].amount && e.name == ts[k].borrower
    {
      var l, b := ls[ms[k].lender], bs[ms[k].borrower];
      assert l in ls && b in bs;
      assert ts[k] == Transfer(l.name, b.name, ms[k].amount);
    }
  }

  /** The money moved by the whole settlement is the smaller of the total
      winnings and the total losses. */
  lemma SettlementTotal(slots: seq<Option<Player>>)
    ensures var es := NetChanges(slots);
      Total(Transactions(slots)) == Min(SumNet(Lenders(es)), -SumNet(Borrowers(es)))
  {
    var es := NetChanges(slots);
    var ls, bs := Lenders(es), Borrowers(es);
    MatchingTotal(ls, bs);
  }

  /** Player by player: when the losses cover the winnings, the winner at
      position `k` of the lender list receives exactly their gain over all
      the transfers that name them; when the winnings cover the losses, the
      loser at position `k` of the borrower list pays exactly their loss. */
  lemma SettlementPaysInFull(slots: seq<Option<Player>>)
    ensures var es, ms := NetChanges(slots), SettlementMatches(slots);
      var ls, bs := Lenders(es), Borrowers(es);
      && (SumNet(ls) <= -SumNet(bs) ==> forall k :: 0 <= k < |ls| ==> ReceivedBy(ms, k) == ls[k].net)
      && (-SumNet(bs) <= SumNet(ls) ==> forall k :: 0 <= k < |bs| ==> PaidBy(ms, k) == -bs[k].net)
  {
    var es := NetChanges(slots);
    var ls, bs := Lenders(es), Borrowers(es);
    StartValid(slots);
    assert ls[0..] == ls && bs[0..] == bs;
    if SumNet(ls) <= -SumNet(bs) {
      GreedyPaysLenders(ls, bs, Start());
    }
    if -SumNet(bs) <= SumNet(ls) {
      GreedyPaysBorrowers(ls, bs, Start());
    }
  }

  /** When the chips on the table at the end match the buy-ins, every
      winner receives exactly their gain and every loser pays exactly their
      loss, and the money moved is the total of the winnings. */
  lemma SettlementBalanced(slots: seq<Option<Player>>)
    requires TotalEndgameChips(slots) == TotalChips(slots)
    ensures var es, ms := NetChanges(slots), SettlementMatches(slots);
      var ls, bs := Lenders(es), Borrowers(es);
      && (forall k :: 0 <= k < |ls| ==> ReceivedBy(ms, k) == ls[k].net)
      && (forall k :: 0 <= k < |bs| ==> PaidBy(ms, k) == -bs[k].net)
      && Total(Transactions(slots)) == SumNet(ls) == -SumNet(bs)
  {
    var es := NetChanges(slots);
    NetChangesSum(slots);
    SumNetSplit(es);
    SettlementTotal(slots);
    SettlementPaysInFull(slots);
  }

  // ---------------------------------------------------------------------
  // A worked table

  function Seated(name: string, chips: int, endgameChips: int, seat: int): Player {
    Player(name, name, chips, endgameChips, Some(seat), "s")
  }

  /** Two winners (+50, +30), two losers (-40, -40) and an empty seat: the
      first winner is paid by the first loser and then by the second, and
      the second winner by what the second loser still owes. */
  lemma WorkedTable()
    ensures Transactions([Some(Seated("A", 100, 150, 0)), None, Some(Seated("B", 100, 130, 2)),
                          Some(Seated("C", 100, 60, 3)), Some(Seated("D", 100, 60, 4))])
              == [Transfer("A", "C", 40), Transfer("A", "D", 10), Transfer("B", "D", 30)]
  {
    var slots := [Some(Seated("A", 100, 150, 0)), None, Some(Seated("B", 100, 130, 2)),
                  Some(Seated("C", 100, 60, 3)), Some(Seated("D", 100, 60, 4))];
    var a, b, c, d := NetEntry("A", "A", 50), NetEntry("B", "B", 30), NetEntry("C", "C", -40), NetEntry("D", "D", -40);
    WorkedNetChanges(slots, a, b, c, d);
    WorkedSplit(a, b, c, d);
    WorkedMatching(a, b, c, d);
  }

  lemma WorkedNetChanges(slots: seq<Option<Player>>, a: NetEntry, b: NetEntry, c: NetEntry, d: NetEntry)
    requires slots == [Some(Seated("A", 100, 150, 0)), None, Some(Seated("B", 100, 130, 2)),
                       Some(Seated("C", 100, 60, 3)), Some(Seated("D", 100, 60, 4))]
    requires a == NetEntry("A", "A", 50) && b == NetEntry("B", "B", 30)
    requires c == NetEntry("C", "C", -40) && d == NetEntry("D", "D", -40)
    ensures NetChanges(slots) == [a, b, c, d]
  {
    assert NetChanges(slots[4..]) == [d];
    assert NetChanges(slots[3..]) == [c, d];
    assert NetChanges(slots[2..]) == [b, c, d];
    assert NetChanges(slots[1..]) == [b, c, d];
  }

  lemma WorkedSplit(a: NetEntry, b: NetEntry, c: NetEntry, d: NetEntry)
    requires a.net == 50 && b.net == 30 && c.net == -40 && d.net == -40
    ensures Lenders([a, b, c, d]) == [a, b] && Borrowers([a, b, c, d]) == [c, d]
  {
    var es := [a, b, c, d];
    assert es[1..] == [b, c, d] && es[2..] == [c, d] && es[3..] == [d];
    assert Lenders([d]) == [] && Borrowers([d]) == [d];
    assert Lenders([c, d]) == [] && Borrowers([c, d]) == [c, d];
    assert Lenders([b, c, d]) == [b] && Borrowers([b, c, d]) == [c, d];
  }

  lemma WorkedMatching(a: NetEntry, b: NetEntry, c: NetEntry, d: NetEntry)
    requires a == NetEntry("A", "A", 50) && b == NetEntry("B", "B", 30)
    requires c == NetEntry("C", "C", -40) && d == NetEntry("D", "D", -40)
    ensures Transfers([a, b], [c, d], Greedy([a, b], [c, d], 0, 0, 0, 0))
              == [Transfer("A", "C", 40), Transfer("A", "D", 10), Transfer("B", "D", 30)]
  {
    var ls, bs := [a, b], [c, d];
    assert Greedy(ls, bs, 2, 2, 0, 0) == [];
    assert Greedy(ls, bs, 1, 1, 0, 10) == [Match(1, 1, 30)];
    assert Greedy(ls, bs, 0, 1, 40, 0) == [Match(0, 1, 10), Match(1, 1, 30)];
    assert Greedy(ls, bs, 0, 0, 0, 0) == [Match(0, 0, 40), Match(0, 1, 10), Match(1, 1, 30)];
  }
}

=== FILE: table.dfy ===
/** The in-code part of the store access in `firebase.ts`: re-indexing the
    player documents of a session into an 8-slot table, summing the chips on
    the table and picking the active session. The document queries themselves
    are inputs: each function receives the documents the query returned. */
module Table {
  import opened Wrappers
  import opened Records

  /** The seat test of `getAllPlayers`: not null, at least 0, below 8. */
  predicate OnTable(seat: Option<int>) {
    seat.Some? && 0 <= seat.value < TableSize
  }

  /** `n` is the last position, in query order, of a document seated at `k`. */
  predicate LastIndexAt(docs: seq<Player>, k: int, n: int) {
    && 0 <= n < |docs|
    && docs[n].seat == Some(k)
    && forall m :: n < m < |docs| ==> docs[m].seat != Some(k)
  }

  /** The document that ends up in slot `k`: the last one, in query order,
      whose seat is `k`. */
  function LastAtSeat(docs: seq<Player>, k: int): (r: Option<Player>)
    ensures r.None? <==> forall n :: 0 <= n < |docs| ==> docs[n].seat != Some(k)
    ensures r.Some? ==> exists n :: LastIndexAt(docs, k, n) && docs[n] == r.value
    ensures forall n :: LastIndexAt(docs, k, n) ==> r == Some(docs[n])
  {
    if docs == [] then None
    else if docs[|docs| - 1].seat == Some(k) then
      assert LastIndexAt(docs, k, |docs| - 1);
      Some(docs[|docs| - 1])
    else
      var init := docs[..|docs| - 1];
      var r := LastAtSeat(init, k);
      LastIndexDropsLast(docs, k);
      r
  }

  /** A trailing document seated elsewhere does not change which position is
      the last one seated at `k`. */
  lemma LastIndexDropsLast(docs: seq<Player>, k: int)
    requires docs != [] && docs[|docs| - 1].seat != Some(k)
    ensures forall n :: LastIndexAt(docs, k, n) <==> LastIndexAt(docs[..|docs| - 1], k, n)
  {
    var init := docs[..|docs| - 1];
    forall n | 0 <= n < |init|
      ensures LastIndexAt(docs, k, n) <==> LastIndexAt(init, k, n)
    {
      assert docs[n] == init[n];
      if LastIndexAt(init, k, n) {
        forall m | n < m < |docs|
          ensures docs[m].seat != Some(k)
        {
          if m < |init| {
            assert docs[m] == init[m];
          }
        }
      }
    }
  }

  /** The `forEach` of `getAllPlayers`: start from eight empty slots and
      write each document with an in-range seat into the slot it names. */
  method PlaceBySeat(docs: seq<Player>) returns (slots: seq<Option<Player>>)
    ensures |slots| == TableSize
    ensures forall k :: 0 <= k < TableSize ==> slots[k] == LastAtSeat(docs, k)
    ensures forall k, p :: 0 <= k < TableSize && slots[k] == Some(p) ==> p in docs && p.seat == Some(k)
    ensures forall k :: 0 <= k < TableSize ==>
              (slots[k] == None <==> forall n :: 0 <= n < |docs| ==> docs[n].seat != Some(k))
    ensures forall n :: 0 <= n < |docs| && OnTable(docs[n].seat) && LastIndexAt(docs, docs[n].seat.value, n) ==>
              slots[docs[n].seat.value] == Some(docs[n])
  {
    slots := seq(TableSize, _ => None);
    var n := 0;
    while n < |docs|
      invariant 0 <= n <= |docs|
      invariant |slots| == TableSize
      invariant forall k :: 0 <= k < TableSize ==> slots[k] == LastAtSeat(docs[..n], k)
    {
      var player := docs[n];
      var before := slots;
      if player.seat.Some? && player.seat.value >= 0 && player.seat.value < TableSize {
        slots := slots[player.seat.value := Some(player)];
      }
      PlaceStep(docs, n, before, slots);
      n := n + 1;
    }
    assert docs[..n] == docs;
    PlacedSlots(docs, slots);
  }

  /** What a table holding `LastAtSeat` in every slot says about each slot
      and each document. */
  lemma PlacedSlots(docs: seq<Player>, slots: seq<Option<Player>>)
    requires |slots| == TableSize
    requires forall k :: 0 <= k < TableSize ==> slots[k] == LastAtSeat(docs, k)
    ensures forall k, p :: 0 <= k < TableSize && slots[k] == Some(p) ==> p in docs && p.seat == Some(k)
    ensures forall k :: 0 <= k < TableSize ==>
              (slots[k] == None <==> forall n :: 0 <= n < |docs| ==> docs[n].seat != Some(k))
    ensures forall n :: 0 <= n < |docs| && OnTable(docs[n].seat) && LastIndexAt(docs, docs[n].seat.value, n) ==>
              slots[docs[n].seat.value] == Some(docs[n])
  {
  }

  /** Writing document `n` into its slot (when its seat is on the table)
      turns the placement of the first `n` documents into that of the
      first `n + 1`. */
  lemma PlaceStep(docs: seq<Player>, n: nat, before: seq<Option<Player>>, after: seq<Option<Player>>)
    requires n < |docs| && |before| == TableSize
    requires forall k :: 0 <= k < TableSize ==> before[k] == LastAtSeat(docs[..n], k)
    requires after == if OnTable(docs[n].seat) then before[docs[n].seat.value := Some(docs[n])] else before
    ensures |after| == TableSize
    ensures forall k :: 0 <= k < TableSize ==> after[k] == LastAtSeat(docs[..n + 1], k)
  {
    var next := docs[..n + 1];
    assert next[..|next| - 1] == docs[..n];
    assert next[|next| - 1] == docs[n];
    forall k | 0 <= k < TableSize
      ensures after[k] == LastAtSeat(next, k)
    {
      LastAtSeatSnoc(next, k);
    }
  }

  /** Unfolding `LastAtSeat` once at the end of the list. */
  lemma LastAtSeatSnoc(docs: seq<Player>, k: int)
    requires docs != []
    ensures LastAtSeat(docs, k)
              == if docs[|docs| - 1].seat == Some(k) then Some(docs[|docs| - 1]) else LastAtSeat(docs[..|docs| - 1], k)
  {
  }

  /** `getAllPlayers`: an empty session id is refused before anything else
      happens; otherwise the documents are placed by seat. */
  method GetAllPlayers(sessionId: string, docs: seq<Player>) returns (r: Result<seq<Option<Player>>, string>)
    ensures r.Failure? <==> sessionId == ""
    ensures r.Failure? ==> r.error == "Invalid sessionId provided to getAllPlayers"
    ensures r.Success? ==> |r.value| == TableSize
    ensures r.Success? ==> forall k :: 0 <= k < TableSize ==> r.value[k] == LastAtSeat(docs, k)
  {
    if sessionId == "" {
      return Failure("Invalid sessionId provided to getAllPlayers");
    }
    var slots := PlaceBySeat(docs);
    return Success(slots);
  }

  /** The money on the table: each document's `chips` field, a missing (or
      otherwise falsy) one counting as 0, summed in query order. */
  function ChipsOnTable(chipsFields: seq<Option<int>>): int
  {
    if chipsFields == [] then 0
    else ChipsOnTable(chipsFields[..|chipsFields| - 1]) + chipsFields[|chipsFields| - 1].GetOr(0)
  }

  /** The accumulation loop of `getTableMoneySum`. */
  method TableMoneySum(chipsFields: seq<Option<int>>) returns (moneySum: int)
    ensures moneySum == ChipsOnTable(chipsFields)
  {
    moneySum := 0;
    var n := 0;
    while n < |chipsFields|
      invariant 0 <= n <= |chipsFields|
      invariant moneySum == ChipsOnTable(chipsFields[..n])
    {
      assert chipsFields[..n + 1][..n] == chipsFields[..n];
      moneySum := moneySum + chipsFields[n].GetOr(0);
      n := n + 1;
    }
    assert chipsFields[..n] == chipsFields;
  }

  /** The chips fields of well-formed player documents. */
  function ChipsFields(docs: seq<Player>): (r: seq<Option<int>>)
    ensures |r| == |docs|
    ensures forall n :: 0 <= n < |docs| ==> r[n] == Some(docs[n].chips)
  {
    seq(|docs|, n requires 0 <= n < |docs| => Some(docs[n].chips))
  }

  /** For well-formed documents the money sum is the total buy-in of every
      document the query returned, seated at the table or not. */
  lemma {:induction false} MoneySumIsTotalBuyIn(docs: seq<Player>)
    ensures ChipsOnTable(ChipsFields(docs)) == TotalChips(seq(|docs|, n requires 0 <= n < |docs| => Some(docs[n])))
  {
    if docs != [] {
      var init := docs[..|docs| - 1];
      MoneySumIsTotalBuyIn(init);
      assert ChipsFields(docs)[..|docs| - 1] == ChipsFields(init);
      TotalChipsSnoc(seq(|init|, n requires 0 <= n < |init| => Some(init[n])), Some(docs[|docs| - 1]));
      assert seq(|docs|, n requires 0 <= n < |docs| => Some(docs[n]))
          == seq(|init|, n requires 0 <= n < |init| => Some(init[n])) + [Some(docs[|docs| - 1])];
    }
  }

  lemma {:induction false} TotalChipsSnoc(slots: seq<Option<Player>>, last: Option<Player>)
    ensures TotalChips(slots + [last]) == TotalChips(slots) + SlotChips(last)
  {
    if slots != [] {
      assert (slots + [last])[1..] == slots[1..] + [last];
      TotalChipsSnoc(slots[1..], last);
    } else {
      assert [] + [last] == [last];
    }
  }

  /** The 8 slots `getAllPlayers` builds from the documents. */
  function Placement(docs: seq<Player>): (r: seq<Option<Player>>)
    ensures |r| == TableSize
  {
    seq(TableSize, k requires 0 <= k < TableSize => LastAtSeat(docs, k))
  }

  /** Every document has a seat on the table and no two share one. */
  predicate SeatsDistinctOnTable(docs: seq<Player>) {
    && (forall n :: 0 <= n < |docs| ==> OnTable(docs[n].seat))
    && (forall n, m :: 0 <= n < m < |docs| ==> docs[n].seat != docs[m].seat)
  }

  /** When every document sits in its own seat on the table, the money sum
      of `getTableMoneySum` is the buy-in over the slots of `getAllPlayers`. */
  lemma {:induction false} MoneySumIsTableBuyIn(docs: seq<Player>)
    requires SeatsDistinctOnTable(docs)
    ensures ChipsOnTable(ChipsFields(docs)) == TotalChips(Placement(docs))
  {
    if docs == [] {
      TotalChipsEmpty(Placement(docs));
    } else {
      var init, d := docs[..|docs| - 1], docs[|docs| - 1];
      var s := d.seat.value;
      assert forall n :: 0 <= n < |init| ==> init[n] == docs[n];
      MoneySumIsTableBuyIn(init);
      assert ChipsFields(docs)[..|docs| - 1] == ChipsFields(init);
      forall k | 0 <= k < TableSize
        ensures Placement(docs)[k] == Placement(init)[s := Some(d)][k]
      {
        LastAtSeatSnoc(docs, k);
      }
      assert Placement(docs) == Placement(init)[s := Some(d)];
      assert Placement(init)[s].None?;
      TotalChipsUpdate(Placement(init), s, Some(d));
      assert ChipsOnTable(ChipsFields(docs)) == ChipsOnTable(ChipsFields(init)) + d.chips;
    }
  }

  /** A session document without a seat counts in the money sum but has
      no slot at the table. */
  lemma MoneySumCountsUnseated(d: Player)
    requires d.seat.None?
    ensures ChipsOnTable(ChipsFields([d])) == d.chips
    ensures TotalChips(Placement([d])) == 0
  {
    assert ChipsFields([d])[..0] == [];
    forall k | 0 <= k < TableSize
      ensures Placement([d])[k].None?
    {
      LastAtSeatSnoc([d], k);
    }
    TotalChipsEmpty(Placement([d]));
  }

  /** Replacing one slot changes the buy-in by the difference. */
  lemma {:induction false} TotalChipsUpdate(slots: seq<Option<Player>>, k: nat, slot: Option<Player>)
    requires k < |slots|
    ensures TotalChips(slots[k := slot]) == TotalChips(slots) - SlotChips(slots[k]) + SlotChips(slot)
  {
    if k > 0 {
      assert slots[k := slot][1..] == slots[1..][k - 1 := slot];
      TotalChipsUpdate(slots[1..], k - 1, slot);
    } else {
      assert slots[k := slot][1..] == slots[1..];
    }
  }

  lemma {:induction false} TotalChipsEmpty(slots: seq<Option<Player>>)
    requires forall k :: 0 <= k < |slots| ==> slots[k].None?
    ensures TotalChips(slots) == 0
  {
    if slots != [] {
      assert forall k :: 0 <= k < |slots| - 1 ==> slots[1..][k] == slots[k + 1];
      TotalChipsEmpty(slots[1..]);
    }
  }

  /** `n` is the position of the first active session. */
  predicate FirstActiveAt(sessions: seq<Session>, n: int) {
    && 0 <= n < |sessions|
    && sessions[n].isActive
    && forall m :: 0 <= m < n ==> !sessions[m].isActive
  }

  /** `getActiveSession`: the first session, in query order, that is active. */
  function ActiveSession(sessions: seq<Session>): (r: Option<Session>)
    ensures r.None? <==> forall n :: 0 <= n < |sessions| ==> !sessions[n].isActive
    ensures r.Some? ==> exists n :: FirstActiveAt(sessions, n) && sessions[n] == r.value
  {
    if sessions == [] then None
    else if sessions[0].isActive then Some(sessions[0])
    else
      var r := ActiveSession(sessions[1..]);
      assert forall n :: 1 <= n < |sessions| ==> (FirstActiveAt(sessions, n) <==> FirstActiveAt(sessions[1..], n - 1));
      r
  }
}

=== FILE: wrappers.dfy ===
/** An optional value and the outcome of a call that may throw: `Option`
    stands for a JavaScript value that may be null/undefined/NaN, `Result`
    for a value or the message of the error thrown instead. */
module Wrappers {

  datatype Option<+T> = None | Some(value: T) {

    /** The wrapped value, or `default` when there is none. */
    function GetOr(default: T): T {
      match this
      case Some(v) => v
      case None => default
    }
  }

  datatype Result<+R, +E> = Success(value: R) | Failure(error: E)
}
